=== FILE: README.md ===
# ScaleCATMAID scale pyramid, modelled in Dafny

`ScaleCATMAID.scale` builds the scale pyramid of a CATMAID tile set. Level 0
already exists in storage. For every z-section from `minZ` to `maxZ` it builds
level 1, 2, … in turn. At level `s` it walks a grid of positions over the
level-0 extent, divided by `1 << (s - 1)`, with a stride of two tiles. At
each position it:

- reads the 2x2 block of level `s-1` tiles;
- skips the position when all four reads come back as the shared
  placeholder image;
- otherwise downsamples the mosaic and writes one level-`s` tile, unless the
  downsampler reports it empty and empty tiles are being ignored.

A section stops after the first level with at most one position.
`scale(Param)` turns inclusive tile ranges into the half-open pixel extent.
`open` turns a missing file, or one whose read throws an IOException, into
the placeholder.

The model:

- `java_arith.dfy` (`JavaArith`): `1 << n` as `Pow2` and Java's truncating
  `/` as `Quot`.
- `tiles.dfy` (`Tiles`): the data. This covers tile addresses (the integer
  arguments of the path template), what storage holds under a path, `open`,
  the 2x2 block, the collaborators (path template, downsampler), the run
  configuration, `Param` and its conversion, and the range assumptions
  (`WellFormed`).
- `grid.dfy` (`Grid`): the values each position loop visits, the positions
  in row-major order, and the sequence of per-level position counts that the
  termination rule produces. `GridRule` selects the loop start. `AsWritten`
  is the source's start and `PairAligned` is the corrected one (see
  Findings).
- `addressing.dfy` (`Addressing`): the four source addresses and the output
  address at a position, and how they relate.
- `pyramid.dfy` (`Pyramid`): one position (`Visit`), the two position loops
  (`VisitRows`), and one level (`RunLevel`). Storage is a map from rendered
  path to file state and is threaded through every write. It also holds the
  reference for what a level writes (`WrittenOutputs`).
- `sections.dfy` (`Sections`): the level loop of one section, the z loop,
  and the entry points `Scale`, `ScaleParam` and `ScaleCorrected`.
- `coverage.dfy` (`Coverage`): which level `s-1` tiles a level reads, under
  both loop starts.

The path template, the downsampler and the file round trip are parameters
(`Env`): `path` renders an address, `downsample` maps the four sources to
pixels plus the `notEmpty` flag, and `stored` says what a later `open` finds
in a file written from given pixels (after conversion to the output image
type and encoding in the output format at the given quality). File contents
are an abstract type `T`.

The depth of a section depends on the extent alone. With the source's loop
start, an extent at most 2^k level-0 tiles wide and high, wherever it lies,
makes a section build at most k levels, but always at least one: a single
tile still builds level 1, one more than log2 of the tiles across
(`Grid.DepthWithinLog2Across`, `Grid.SingleTileDepth`). The same bound holds
under either loop start when the extent lies within the first 2^k tiles from
pixel 0 (`Grid.DepthWithinLog2`).

Sections are independent, as the class comment (lines 32-37) says when it
allows scaling in parallel by z-section. When the path template keeps
sections apart (`SectionSeparating`), the levels of section z look at and
change storage only under section-z paths, so the z loop writes the
concatenation, in increasing z, of what each section writes when run alone
on the initial storage (`Sections.RunFromWritesBySection`,
`Sections.ScaleWritesBySection`).

Two details of the code the model follows exactly:

- `nResultTiles` is incremented before the all-placeholder skip (lines 203
  and 225), so skipped positions count toward the termination rule.
- `ImageIO.read` can return `null` when no decoder applies (line 129). A null
  is not the placeholder, so a position whose sources are all undecodable
  is not skipped. It is handed to the drawing code instead (`Undecodable` and
  `NoImage` in the model).

## Model

| member | source | states |
|---|---|---|
| Tiles.Open | src/main/java/org/catmaid/ScaleCATMAID.java:119-138 | a missing file and a read that throws an IOException give exactly the placeholder; a decoded image is passed through unchanged; an undecodable file gives neither |
| Tiles.ToConfig | src/main/java/org/catmaid/ScaleCATMAID.java:258-273 | tile sizes, z range and the ignore flag are passed on; a pixel lies in the half-open extent exactly when its tile index lies in the inclusive column (row) range |
| JavaArith.Quot | src/main/java/org/catmaid/ScaleCATMAID.java:197-204 | Java's `/` truncates toward zero: on a non-negative dividend the quotient is the floor, on a negative one it is the ceiling, within one divisor of the dividend |
| Grid.Steps | src/main/java/org/catmaid/ScaleCATMAID.java:197-201 | the loop `for (v = lo; v < hi; v += step)` visits lo + k·step for k = 0, 1, … while below hi, and one more stride reaches hi |
| Grid.AxisStartsAreLoop | src/main/java/org/catmaid/ScaleCATMAID.java:197-201 | the loop along one axis at level s (rows at line 197, columns at line 201, as `RowStarts` and `ColStarts`) is entered exactly when its start lies below `max / iScale1`; it starts at the rule's origin of `min / iScale1`, advances by two tiles, stays below `max / iScale1`, and stops within one stride of it |
| Grid.Origin | src/main/java/org/catmaid/ScaleCATMAID.java:197-201 | the source starts each axis at the level's lower bound; the corrected start is the largest multiple of the stride at or below it, and is non-negative for a non-negative bound |
| Grid.StepsQuot | src/main/java/org/catmaid/ScaleCATMAID.java:200-204 | from a non-negative start, the block index `v / (2·tile)` of the k-th value visited is the start's block index plus k |
| Grid.RowMajor | src/main/java/org/catmaid/ScaleCATMAID.java:197-203 | the nested loops visit \|ys\|·\|xs\| positions, one per pair of row start and column start |
| Grid.RowMajorMembers | src/main/java/org/catmaid/ScaleCATMAID.java:197-203 | a position is visited exactly when its x is a column start and its y a row start |
| Grid.RowMajorOrder | src/main/java/org/catmaid/ScaleCATMAID.java:197-203 | the position of row i and column j is the (i·\|xs\| + j)-th visited: y outer, x inner |
| Grid.EmptyBeyondExtent | src/main/java/org/catmaid/ScaleCATMAID.java:192-201 | once `1 << (s-1)` reaches the extent limit it exceeds every extent coordinate, both bounds truncate to 0 and the level has no position |
| Grid.BusyLevelWithinExtent | src/main/java/org/catmaid/ScaleCATMAID.java:185-203 | a level with more than one position has `1 << (s-1)` below the extent limit, so the measure of the level loop shrinks |
| Grid.LevelCounts | src/main/java/org/catmaid/ScaleCATMAID.java:185-253 | the counts of the levels a section runs: the first is the number of positions of level s; every count but the last exceeds 1; the last is at most 1; the last level but one lies below level 30, because its scale factor stays below the extent limit |
| Grid.LevelCountIsGridSize | src/main/java/org/catmaid/ScaleCATMAID.java:194-203 | the i-th count is the number of grid positions of level s + i, skipped positions included |
| Grid.StepsAtMostOne | src/main/java/org/catmaid/ScaleCATMAID.java:197-201 | a loop bound at most one stride above the start lets the loop body run at most once |
| Grid.AxisFitsOneTile | src/main/java/org/catmaid/ScaleCATMAID.java:192-201 | when a non-negative extent lies within the first level-s tile from pixel 0 along an axis, level s has at most one loop start along that axis, under either loop start |
| Grid.LevelFitsOneTile | src/main/java/org/catmaid/ScaleCATMAID.java:192-203 | a level whose first tile from pixel 0 contains a non-negative extent in both directions counts at most one position, so the termination rule fires there |
| Grid.DepthFitsExtent | src/main/java/org/catmaid/ScaleCATMAID.java:185-253 | when a non-negative extent lies within the first level-s tile from pixel 0 along both axes, a section builds at most s levels, under either loop start |
| Grid.DepthWithinLog2 | src/main/java/org/catmaid/ScaleCATMAID.java:185-253 | when a non-negative extent lies within the first 2^k level-0 tiles from pixel 0 along both axes, a section builds at most k levels, and at most one when k is 0, under either loop start |
| Grid.ScaledBoundsWithinStride | src/main/java/org/catmaid/ScaleCATMAID.java:192-201 | bounds at most one level-s tile apart, both divided by `1 << (s-1)` with Java's truncation, end at most one two-tile stride apart, whatever their signs |
| Grid.AxisWidthOneTile | src/main/java/org/catmaid/ScaleCATMAID.java:192-201 | with the source's loop start, once one level-s tile is as wide as the extent along an axis, level s has at most one loop start along that axis, wherever the extent lies |
| Grid.LevelWidthOneTile | src/main/java/org/catmaid/ScaleCATMAID.java:192-203 | with the source's loop start, a level whose single tile is as wide and as high as the extent counts at most one position, so the termination rule fires there |
| Grid.DepthFitsWidth | src/main/java/org/catmaid/ScaleCATMAID.java:185-253 | with the source's loop start, an extent at most one level-s tile wide and high makes a section build at most s levels |
| Grid.DepthWithinLog2Across | src/main/java/org/catmaid/ScaleCATMAID.java:185-253 | with the source's loop start, an extent at most 2^k level-0 tiles wide and high makes a section build at most k levels, and at most one when k is 0 |
| Grid.SingleTileDepth | src/main/java/org/catmaid/ScaleCATMAID.java:185-253 | a single 256-pixel tile builds exactly one level, with one position |
| Grid.LevelsStayInRange | src/main/java/org/catmaid/ScaleCATMAID.java:185-192 | under the extent bound no section runs past level 30, so `1 << s` never overflows |
| Addressing.Children | src/main/java/org/catmaid/ScaleCATMAID.java:205-223 | the four reads address level s-1 of the same section |
| Addressing.ChildrenTileTheBlock | src/main/java/org/catmaid/ScaleCATMAID.java:205-223 | each read has the size of one level s-1 tile; the top-left one sits at the loop position scaled by `1 << (s-1)`; the others are one tile to the right, below, and diagonally below-right |
| Addressing.Output | src/main/java/org/catmaid/ScaleCATMAID.java:245 | the write addresses level s of the same section, with the size of one level-s tile |
| Addressing.ChildrenFormBlock | src/main/java/org/catmaid/ScaleCATMAID.java:200-223 | each read lies one level below the output, at half its size, with row/2 and col/2 equal to the output's row and col; the top-left read is cell (2r, 2c) below output (r, c), the top-right one (2r, 2c+1), the bottom-left one (2r+1, 2c) and the bottom-right one (2r+1, 2c+1), as the drawing at lines 229-232 places them; the output's pixel arguments are twice the top-left read's |
| Addressing.OutputsFormGrid | src/main/java/org/catmaid/ScaleCATMAID.java:197-204 | on a non-negative extent the output of grid cell (i, j) sits i rows below and j columns right of the first output |
| Addressing.OutputsDistinct | src/main/java/org/catmaid/ScaleCATMAID.java:197-245 | on a non-negative extent two different grid cells of one level write two different tiles; the sign condition is needed, since truncating division puts x = -256 and x = 256 in the same column for 256-pixel tiles |
| Pyramid.ReadQuadSkips | src/main/java/org/catmaid/ScaleCATMAID.java:205-227 | the four reads are all the placeholder exactly when each of the four paths holds a missing file or one whose read throws an IOException; they depend on storage only under those four paths |
| Pyramid.WritesIff | src/main/java/org/catmaid/ScaleCATMAID.java:225-239 | a position writes exactly when one of its four source files exists and reads without an exception, and the downsampler reports content or empty tiles are not ignored |
| Pyramid.Visit | src/main/java/org/catmaid/ScaleCATMAID.java:203-248 | one position counts once, whether skipped or not; it reads its four sources in order; it never touches `workToDo` |
| Pyramid.VisitStore | src/main/java/org/catmaid/ScaleCATMAID.java:225-248 | the position writes its output exactly when the write condition holds; with four placeholders nothing is written and storage is unchanged; otherwise storage changes only under the output's path, which then holds what reading back the encoded downsampled pixels gives, not the pixels themselves |
| Pyramid.AllChildren | src/main/java/org/catmaid/ScaleCATMAID.java:205-223 | four reads per position, all of level s-1 of the section |
| Pyramid.VisitAll | src/main/java/org/catmaid/ScaleCATMAID.java:201-249 | visiting a run of positions counts each of them once and leaves the flag alone |
| Pyramid.VisitAllLogs | src/main/java/org/catmaid/ScaleCATMAID.java:201-249 | visiting a run of positions reads the four sources of each in order and writes only level-s tiles of the section |
| Pyramid.VisitRows | src/main/java/org/catmaid/ScaleCATMAID.java:197-250 | the outer loop counts every position of every row once and leaves `workToDo` set exactly when some row was entered (line 199) |
| Pyramid.VisitRowsIsRowMajor | src/main/java/org/catmaid/ScaleCATMAID.java:196-250 | the nested loops are the row-major visit of all positions; `workToDo` ends set exactly when some row was entered |
| Pyramid.RunLevel | src/main/java/org/catmaid/ScaleCATMAID.java:186-253 | a level's count is its grid size whatever storage holds; the loop continues exactly when the count exceeds 1; the reads are the four sources of every position in visiting order; every write is a level-s tile of the section |
| Pyramid.RunLevelIsNestedLoops | src/main/java/org/catmaid/ScaleCATMAID.java:196-253 | a level is the outer loop over the row starts around the inner loop over the column starts, from `workToDo` false, followed by clearing `workToDo` when at most one position was counted |
| Pyramid.WrittenOutputsFrom | src/main/java/org/catmaid/ScaleCATMAID.java:225-248 | every tile in the reference comes from a position that passes the write condition |
| Pyramid.WrittenOutputsHas | src/main/java/org/catmaid/ScaleCATMAID.java:225-248 | every position that passes the write condition has its output in the reference |
| Pyramid.VisitKeepsSources | src/main/java/org/catmaid/ScaleCATMAID.java:205-248 | when the path template keeps levels apart, a write leaves every level s-1 path as it was, so later positions see the same sources |
| Pyramid.LevelWritesMatchReference | src/main/java/org/catmaid/ScaleCATMAID.java:196-250 | a level writes exactly the reference outputs, in visiting order, judged against the storage the level started on |
| Pyramid.VisitIndep | src/main/java/org/catmaid/ScaleCATMAID.java:203-248 | a visit of section z on two stores that agree on every section-z path counts, reads and writes the same, and leaves stores that still agree there |
| Pyramid.VisitKeepsOtherSections | src/main/java/org/catmaid/ScaleCATMAID.java:205-248 | when the path template keeps sections apart, a visit of section z leaves every path of another section as it was |
| Pyramid.VisitAllIndep | src/main/java/org/catmaid/ScaleCATMAID.java:201-249 | a run of positions of section z depends on storage only under section-z paths |
| Pyramid.VisitAllKeepsOtherSections | src/main/java/org/catmaid/ScaleCATMAID.java:201-249 | when the path template keeps sections apart, a run of positions of section z leaves every other section's paths as they were |
| Pyramid.RunLevelIndep | src/main/java/org/catmaid/ScaleCATMAID.java:186-253 | a level of section z on two stores that agree on section z has the same count, flag, reads and writes, and leaves stores that still agree there |
| Pyramid.RunLevelKeepsOtherSections | src/main/java/org/catmaid/ScaleCATMAID.java:196-253 | when the path template keeps sections apart, a level of section z leaves every other section's paths as they were |
| Sections.RunSection | src/main/java/org/catmaid/ScaleCATMAID.java:184-254 | the counts of the levels a section runs are the level counts of the grid alone; its reads are the storage-independent reference `LevelReads`: the four sources of every position of each level, level after level, until the first level with at most one position; every write belongs to the section and to one of the levels run |
| Sections.LevelReadsInSection | src/main/java/org/catmaid/ScaleCATMAID.java:181-254 | every read of a section's levels names that section |
| Sections.RunFrom | src/main/java/org/catmaid/ScaleCATMAID.java:181-255 | the reads of the z loop are the reference `RangeReads`: the reads of section z, then of z + 1, and so on to `maxZ`, in that order, whatever storage holds; every write belongs to a section of the range and to a level between 1 and 30 |
| Sections.RangeReadsInRange | src/main/java/org/catmaid/ScaleCATMAID.java:181-255 | every read of the z loop names a section of the range |
| Sections.RangeReadsOrdered | src/main/java/org/catmaid/ScaleCATMAID.java:181-255 | the z loop reads in increasing z: no read follows a read of a later section |
| Sections.RunFromCounts | src/main/java/org/catmaid/ScaleCATMAID.java:181-255 | one count sequence per section of the range, all equal to the level counts of level 1 on: every section is built to the same depth, whatever it holds |
| Sections.RunSectionIndep | src/main/java/org/catmaid/ScaleCATMAID.java:184-254 | the levels of section z on two stores that agree on section z write the same tiles in the same order and leave stores that still agree there |
| Sections.RunSectionKeepsOtherSections | src/main/java/org/catmaid/ScaleCATMAID.java:184-254 | when the path template keeps sections apart, the levels of section z leave every other section's paths as they were |
| Sections.RunFromWritesTurn | src/main/java/org/catmaid/ScaleCATMAID.java:181-255 | one turn of the z loop: section z writes what it writes when run alone on the initial storage, and the storage it leaves still agrees with the initial storage from section z + 1 on |
| Sections.RunFromWritesBySection | src/main/java/org/catmaid/ScaleCATMAID.java:181-255 | when the path template keeps sections apart, the z loop from z writes the concatenation, over z' = z .. maxZ, of what section z' writes when run alone on the initial storage: no section sees another's writes |
| Sections.Scale | src/main/java/org/catmaid/ScaleCATMAID.java:157-256 | the whole run over [minZ, maxZ]: one equal count sequence per section, the reads are the reference `RangeReads` from `minZ`, and every write lies in the z range at a level between 1 and 30 |
| Sections.ScaleParam | src/main/java/org/catmaid/ScaleCATMAID.java:258-273 | the same on the converted extent: one equal count sequence per section of the Param's z range, the reference reads, and writes inside the range |
| Sections.ScaleWritesBySection | src/main/java/org/catmaid/ScaleCATMAID.java:32-37 | the whole run writes, section after section, exactly what each section writes alone on the initial storage, so sections can be scaled separately or in parallel, as the class comment says |
| Sections.ScaleParamWritesBySection | src/main/java/org/catmaid/ScaleCATMAID.java:258-273 | the same for `scale(Param)` on its converted extent |
| Sections.ScaleCorrected | src/main/java/org/catmaid/ScaleCATMAID.java:197-201 | the builder with the aligned loop start: the same count, read and write guarantees as `Scale`, under the corrected grid |
| Sections.ThreeByThreeDepth | src/main/java/org/catmaid/ScaleCATMAID.java:185-273 | three by three tiles of 256 pixels: level 1 has four positions and level 2 one, so the run builds exactly two levels whatever storage holds |
| Coverage.AsWrittenMissesColumn | src/main/java/org/catmaid/ScaleCATMAID.java:201-223 | for columns 1..2 of 256-pixel tiles, the source's level 1 has one position, whose reads carry column indices 0 and 1 only, and the section stops there; its top-right read has column index 1 but pixel argument 512, the first pixel of column 2 |
| Coverage.AsWrittenPositionMissesLast | src/main/java/org/catmaid/ScaleCATMAID.java:201-223 | on a column range with odd first and even last column, every position the source visits at level 1 reads only columns left of the last |
| Coverage.AsWrittenMissesLastColumn | src/main/java/org/catmaid/ScaleCATMAID.java:201-223 | on such a range the source's level 1 never reads the last column, in any row or section |
| Coverage.AsWrittenScaleMissesColumn | src/main/java/org/catmaid/ScaleCATMAID.java:258-273 | the source's whole run on that range issues no read with column index 2 |
| Coverage.AsWrittenMissesLevelTwo | src/main/java/org/catmaid/ScaleCATMAID.java:197-223 | for columns 2..5 of 256-pixel tiles, the source's level 1 has positions x = 512 and x = 1024, writing level-1 columns 1 and 2; level 2 has the single position x = 256, which reads level-1 columns 0 and 1 only, and the section stops there |
| Coverage.AsWrittenScaleMissesLevelTwo | src/main/java/org/catmaid/ScaleCATMAID.java:258-273 | the source's whole run on columns 2..5 reads no level-1 tile with column index 2 |
| Coverage.AlignedAxisCovers | src/main/java/org/catmaid/ScaleCATMAID.java:197-204 | with the corrected start, every tile that meets the level's extent along an axis falls in the block of a visited position |
| Coverage.CorrectedLevelOneReadsEveryTile | src/main/java/org/catmaid/ScaleCATMAID.java:197-223 | with the corrected start, level 1 reads every level-0 tile of a non-negative inclusive range |
| Coverage.CorrectedScaleReadsColumn | src/main/java/org/catmaid/ScaleCATMAID.java:197-223 | the corrected run on columns 1..2 reads column 2 |
| Coverage.CorrectedReadsLevelTwo | src/main/java/org/catmaid/ScaleCATMAID.java:197-223 | with the aligned start, level 2 on columns 2..5 visits x = 0 and x = 512, and the top-left read at x = 512 is level-1 column 2 |
| Coverage.CorrectedScaleReadsLevelTwo | src/main/java/org/catmaid/ScaleCATMAID.java:197-223 | the corrected run on columns 2..5 reads level-1 column 2 |
| Coverage.CorrectedDeeperOnNarrowExtent | src/main/java/org/catmaid/ScaleCATMAID.java:197-201 | columns 1..2 of 256-pixel tiles form an extent exactly two tiles wide, off pixel 0: the source's start builds one level ([1]) but the corrected start builds two ([2, 1]), one more than log2 of the tiles across |
| Coverage.RunReadsFirstLevel | src/main/java/org/catmaid/ScaleCATMAID.java:181-205 | whatever level 1 of the first section reads, the run reads |

## Left out

- Parameter parsing (`parseParameters`, system properties, defaults): it is configuration I/O, and the model starts from `Param` or the extent.
- Pixel work: drawing the mosaic, `PixelGrabber`, `Downsampler.downsampleRGB`, `Util.draw` and `Util.writeTile`. The downsampler is the parameter `Env.downsample`, and a write stores `Env.stored` of its pixels under the rendered path.
- The scratch mosaic is not cleared between positions. A null image draws nothing, so stale pixels from an earlier position can reach the downsampler. The model hands the four sources to `downsample` and does not model the buffer.
- `String.format` and the floating-point scale factors: the path template is the parameter `Env.path`. `LevelSeparating` is the assumption that it keeps levels apart, which `LevelWritesMatchReference` needs; `SectionSeparating` is the assumption that it keeps sections apart, which the section-independence lemmas need.
- Output format, JPEG quality and image type: they are folded into the parameter `Env.stored`. The model does not describe the round trip, so it neither assumes nor excludes that a lossy format or a gray conversion changes what the next level reads, and with it that level's `notEmpty`.
- Exceptions from writing, and the progress printing: a failing write aborts the run, and the model has no failing write.
- Tiles.Open: only an IOException from `ImageIO.read` is caught (line 131). An unchecked exception (a decoder's RuntimeException on a corrupt file, or an Error) propagates out of `scale` and ends the run; `FileState` has no state for it, so the model does not describe such a run.
- Addressing.Output: the `int` products `tileWidth * iScale` and `tileHeight * iScale` are not wrapped to 32 bits, so the width and height arguments are exact even where Java would overflow them.
- Addressing.Children: the `int` products `tileWidth * iScale1` and `tileHeight * iScale1` (lines 206-221) are not wrapped to 32 bits. `WellFormed` admits inputs where Java overflows them: tile width 1 and tile height 2^30 - 1 give 4 * (2^30 - 1) at level 3.
- Pyramid.RunLevel: the `int` counter `nResultTiles` is not wrapped, so a level with more than 2^31 - 1 positions is counted exactly.
- Tiles.WellFormed: the model assumes tile sizes whose double fits an `int`, an extent below 2^29 in magnitude, and `maxZ < Long.MAX_VALUE`. Under these, `2 * tileWidth`, `1 << s` and `z++` never overflow, and runs outside them are not modelled. These exclude the program's own defaults (lines 95-100). With the default `maxZ = Long.MAX_VALUE`, `z <= maxZ` at line 181 always holds and `z++` wraps, so the z loop never ends and keeps building empty sections, since the depth depends on geometry alone (`Sections.RunFromCounts`). With the default `maxC = maxR = Integer.MAX_VALUE`, `scale(Param)` passes `maxX = 2^31 * tileWidth`, far beyond 2^29, so a run with 256-pixel tiles reaches level 31, where `1 << s` overflows.
- Grid.DepthFitsExtent, Grid.DepthWithinLog2: stated for non-negative extents only. With a negative lower bound, truncating division can place two positions within one tile's span from pixel 0 (tile width 256, extent [-511, 512) at level 1 visits x = -511 and x = 1).
- Grid.DepthWithinLog2: the bound is measured from pixel 0, not in the width of the extent. The width form (`Grid.DepthWithinLog2Across`) is proved for the source's loop start only: the corrected start can need one level more, since columns 1..2 give the counts [1] under the source's start and [2, 1] under the corrected one (`Coverage.CorrectedDeeperOnNarrowExtent`).

## Findings

| source | as written | input that shows it | evidently intended | confidence | as-written member | corrected member |
|---|---|---|---|---|---|---|
| src/main/java/org/catmaid/ScaleCATMAID.java:197-201 | each axis loop starts at `min / iScale1`, which need not be a multiple of the two-tile stride, so positions address 2x2 blocks misaligned with the tiles. A read's index arguments then disagree with its pixel arguments, so the miss below is in index terms: it shows with a path template that names tiles by row and column, as the default `%5$d/%8$d_%9$d_%1$d` (line 103) does. It happens at level 1 when the first column is odd, and at higher levels even when level 1 is aligned | 256-pixel tiles, row 0. Columns 1..2: level 1 has the single position x = 256, whose reads have column indices 0 and 1; column 2 is never read and the run stops after level 1. Columns 2..5: level 1 writes level-1 columns 1 and 2, level 2 has the single position x = 256, which reads level-1 columns 0 and 1, and level-1 column 2 is never read | start each axis at the largest multiple of `2 * tile` at or below the bound, so every tile of the extent is read | medium, not executed | Coverage.AsWrittenMissesLastColumn, Coverage.AsWrittenMissesLevelTwo | Coverage.CorrectedLevelOneReadsEveryTile (level 1, every non-negative range), Coverage.CorrectedReadsLevelTwo (the level-2 example only) |

=== FILE: addressing.dfy ===
/** The tile addresses the builder formats at one position: the four level
    s-1 sources it reads and the level-s tile it writes. */
module Addressing {
  import opened JavaArith
  import opened Tiles
  import opened Grid

  /** The four reads at position p of level s, in the order the source
      issues them: top-left, top-right, bottom-left, bottom-right. Every
      one addresses level s-1 of section z with tiles of that level's size;
      pixel arguments are the loop position, offset by one tile to the
      right or down, scaled by `iScale1 = 1 << (s - 1)`. */
  function Children(c: Config, s: nat, z: int, p: Pos): (q: Quad<Address>)
    requires c.tileWidth > 0 && c.tileHeight > 0 && s >= 1
    ensures forall i :: 0 <= i < 4 ==> q.Elements()[i].level == s - 1 && q.Elements()[i].z == z
  {
    var d := Pow2(s - 1);
    var yt := Quot(p.y, 2 * c.tileHeight);
    var xt := Quot(p.x, 2 * c.tileWidth);
    var w := c.tileWidth * d;
    var h := c.tileHeight * d;
    Quad(
      Address(s - 1, p.x * d, p.y * d, z, w, h, 2 * yt, 2 * xt),
      Address(s - 1, (p.x + c.tileWidth) * d, p.y * d, z, w, h, 2 * yt, 2 * xt + 1),
      Address(s - 1, p.x * d, (p.y + c.tileHeight) * d, z, w, h, 2 * yt + 1, 2 * xt),
      Address(s - 1, (p.x + c.tileWidth) * d, (p.y + c.tileHeight) * d, z, w, h, 2 * yt + 1, 2 * xt + 1))
  }

  /** The tile written for position p of level s: row `y / (2 * tileHeight)`
      and column `x / (2 * tileWidth)` in Java's truncating division, with
      pixel arguments `x * iScale` and `y * iScale` for `iScale = 1 << s`. */
  function Output(c: Config, s: nat, z: int, p: Pos): (o: Address)
    requires c.tileWidth > 0 && c.tileHeight > 0
    ensures o.level == s && o.z == z
    ensures o.width == c.tileWidth * Pow2(s) && o.height == c.tileHeight * Pow2(s)
  {
    var d := Pow2(s);
    Address(s, p.x * d, p.y * d, z, c.tileWidth * d, c.tileHeight * d,
            Quot(p.y, 2 * c.tileHeight), Quot(p.x, 2 * c.tileWidth))
  }

  /** Where the four reads point: each is one tile of level s-1 in size,
      the top-left one at the loop position scaled by `1 << (s - 1)`, the
      others one tile to its right, below, and diagonally below-right. */
  lemma ChildrenTileTheBlock(c: Config, s: nat, z: int, p: Pos)
    requires c.tileWidth > 0 && c.tileHeight > 0 && s >= 1
    ensures var q := Children(c, s, z, p);
      && (forall a :: a in q.Elements() ==>
            a.width == c.tileWidth * Pow2(s - 1) && a.height == c.tileHeight * Pow2(s - 1))
      && q.topLeft.xPixel == p.x * Pow2(s - 1) && q.topLeft.yPixel == p.y * Pow2(s - 1)
      && q.topRight.xPixel == q.bottomRight.xPixel == q.topLeft.xPixel + q.topLeft.width
      && q.bottomLeft.yPixel == q.bottomRight.yPixel == q.topLeft.yPixel + q.topLeft.height
      && q.bottomLeft.xPixel == q.topLeft.xPixel && q.topRight.yPixel == q.topLeft.yPixel
  {
    var d := Pow2(s - 1);
    assert (p.x + c.tileWidth) * d == p.x * d + c.tileWidth * d;
    assert (p.y + c.tileHeight) * d == p.y * d + c.tileHeight * d;
  }

  /** The row/column relation between a level-s tile and what it is built
      from: each source lies one level down in the same section, at half
      the tile size, inside the 2x2 block of rows 2r, 2r+1 and columns 2c,
      2c+1 below output (r, c); the four sources are four different cells of
      that block, so they cover it. The output's pixel arguments are twice
      the top-left source's, not the offset arguments a read of the same
      tile at the next level would use. */
  lemma ChildrenFormBlock(c: Config, s: nat, z: int, p: Pos)
    requires c.tileWidth > 0 && c.tileHeight > 0 && s >= 1
    ensures forall a :: a in Children(c, s, z, p).Elements() ==>
      var o := Output(c, s, z, p);
      && a.level + 1 == o.level && a.z == o.z
      && 2 * a.width == o.width && 2 * a.height == o.height
      && a.row / 2 == o.row && a.col / 2 == o.col
    ensures forall i, k :: 0 <= i < k < 4 ==>
      var e := Children(c, s, z, p).Elements();
      e[i].row != e[k].row || e[i].col != e[k].col
    ensures Output(c, s, z, p).xPixel == 2 * Children(c, s, z, p).topLeft.xPixel
    ensures Output(c, s, z, p).yPixel == 2 * Children(c, s, z, p).topLeft.yPixel
    ensures var q, o := Children(c, s, z, p), Output(c, s, z, p);
      && q.topLeft.row == 2 * o.row && q.topLeft.col == 2 * o.col
      && q.topRight.row == q.topLeft.row && q.topRight.col == q.topLeft.col + 1
      && q.bottomLeft.row == q.topLeft.row + 1 && q.bottomLeft.col == q.topLeft.col
      && q.bottomRight.row == q.topLeft.row + 1 && q.bottomRight.col == q.topLeft.col + 1
  {
    Pow2Step(s - 1);
    var d := Pow2(s - 1);
    assert Pow2(s) == 2 * d;
    assert c.tileWidth * Pow2(s) == 2 * (c.tileWidth * d);
    assert c.tileHeight * Pow2(s) == 2 * (c.tileHeight * d);
    assert p.x * Pow2(s) == 2 * (p.x * d);
    assert p.y * Pow2(s) == 2 * (p.y * d);
  }

  /** On a non-negative extent, the output tile of grid row i and grid
      column j sits i rows below and j columns right of the output of the
      first position: the outputs of a level form a contiguous block of
      rows and columns. */
  lemma OutputsFormGrid(c: Config, rule: GridRule, s: nat, z: int, i: int, j: int)
    requires c.tileWidth > 0 && c.tileHeight > 0 && s >= 1
    requires c.minX >= 0 && c.minY >= 0
    requires 0 <= i < |RowStarts(c, rule, s)| && 0 <= j < |ColStarts(c, rule, s)|
    ensures var ys, xs := RowStarts(c, rule, s), ColStarts(c, rule, s);
      var o := Output(c, s, z, Pos(xs[j], ys[i]));
      o.row == Quot(ys[0], 2 * c.tileHeight) + i && o.col == Quot(xs[0], 2 * c.tileWidth) + j
  {
    var d := Pow2(s - 1);
    var oy := Origin(rule, Quot(c.minY, d), 2 * c.tileHeight);
    var ox := Origin(rule, Quot(c.minX, d), 2 * c.tileWidth);
    StepsQuot(oy, Quot(c.maxY, d), 2 * c.tileHeight, i);
    StepsQuot(oy, Quot(c.maxY, d), 2 * c.tileHeight, 0);
    StepsQuot(ox, Quot(c.maxX, d), 2 * c.tileWidth, j);
    StepsQuot(ox, Quot(c.maxX, d), 2 * c.tileWidth, 0);
  }

  /** On a non-negative extent two different grid cells of a level write
      two different tiles, so no output is written twice in one level. The
      sign condition is needed: truncating division sends both -2w+1 .. -1
      and 0 .. 2w-1 to column 0, so with tile width 256 and extent
      [-256, 512) the positions x = -256 and x = 256 write the same column. */
  lemma OutputsDistinct(c: Config, rule: GridRule, s: nat, z: int, i1: int, j1: int, i2: int, j2: int)
    requires c.tileWidth > 0 && c.tileHeight > 0 && s >= 1
    requires c.minX >= 0 && c.minY >= 0
    requires 0 <= i1 < |RowStarts(c, rule, s)| && 0 <= j1 < |ColStarts(c, rule, s)|
    requires 0 <= i2 < |RowStarts(c, rule, s)| && 0 <= j2 < |ColStarts(c, rule, s)|
    requires i1 != i2 || j1 != j2
    ensures var ys, xs := RowStarts(c, rule, s), ColStarts(c, rule, s);
      var o1, o2 := Output(c, s, z, Pos(xs[j1], ys[i1])), Output(c, s, z, Pos(xs[j2], ys[i2]));
      o1.row != o2.row || o1.col != o2.col
  {
    OutputsFormGrid(c, rule, s, z, i1, j1);
    OutputsFormGrid(c, rule, s, z, i2, j2);
  }
}

=== FILE: coverage.dfy ===
/** Which level s-1 tiles a level reads. With the loop starts of the source
    a level can miss tiles of its own extent: when the start is not a
    multiple of the two-tile stride, the 2x2 blocks the positions address
    are not the blocks the tiles fall into. With the starts aligned to the
    stride every tile of the extent is read. */
module Coverage {
  import opened JavaArith
  import opened Tiles
  import opened Grid
  import opened Addressing
  import opened Pyramid
  import opened Sections

  /** `n * d` grows with n for a positive d. */
  lemma MulMonotone(m: int, n: int, d: int)
    requires m <= n && d > 0
    ensures m * d <= n * d
  {
    assert n * d - m * d == (n - m) * d;
  }

  /** `n * d` is strictly below `m * d` only for a smaller n. */
  lemma MulCancelLess(n: int, m: int, d: int)
    requires d > 0 && n * d < m * d
    ensures n < m
  {
    if n >= m {
      MulMonotone(m, n, d);
    }
  }

  /** A tile meeting [lo, ...) with lo >= 0 has a non-negative index j,
      and its block index j / 2 is at least the block index of lo. */
  lemma BlockAtOrAfterStart(lo: int, tile: int, j: int)
    requires tile > 0 && lo >= 0 && lo < (j + 1) * tile
    ensures j >= 0 && lo / (2 * tile) <= j / 2
  {
    assert j >= 0 by {
      if j < 0 {
        MulMonotone(j + 1, 0, tile);
      }
    }
    var m := j / 2;
    assert (m + 1) * (2 * tile) == (2 * m + 2) * tile;
    MulMonotone(j + 1, 2 * m + 2, tile);
    var q := lo / (2 * tile);
    assert q * (2 * tile) <= lo;
    MulCancelLess(q, m + 1, 2 * tile);
  }

  /** The first pixel of the block holding a tile that starts below hi is
      itself below hi. */
  lemma BlockStartsBelow(hi: int, tile: int, j: int)
    requires tile > 0 && j >= 0 && j * tile < hi
    ensures (j / 2) * (2 * tile) < hi
  {
    var m := j / 2;
    assert m * (2 * tile) == (2 * m) * tile;
    MulMonotone(2 * m, j, tile);
  }

  /** A value o + k * step below hi is one the loop visits. */
  lemma StepsReach(o: int, hi: int, step: int, k: int)
    requires step > 0 && 0 <= k && o + k * step < hi
    ensures k < |Steps(o, hi, step)| && Steps(o, hi, step)[k] == o + k * step
  {
    var n := |Steps(o, hi, step)|;
    if k >= n {
      MulMonotone(n, k, step);
    }
  }

  /** With the start rounded down to a multiple of the stride, for every
      tile j of size `tile` that meets [lo, hi) the loop visits a position
      whose 2x2 block (stride index) is the one containing j. */
  lemma AlignedAxisCovers(lo: int, hi: int, tile: int, j: int)
    requires tile > 0 && lo >= 0
    requires lo < (j + 1) * tile && j * tile < hi
    ensures var xs := Steps(Origin(PairAligned, lo, 2 * tile), hi, 2 * tile);
      exists k :: 0 <= k < |xs| && Quot(xs[k], 2 * tile) == j / 2
  {
    var step := 2 * tile;
    var q, m := lo / step, j / 2;
    var o := Origin(PairAligned, lo, step);
    BlockAtOrAfterStart(lo, tile, j);
    BlockStartsBelow(hi, tile, j);
    var k := m - q;
    assert o + k * step == m * step by {
      assert o == q * step;
      assert q * step + (m - q) * step == m * step;
    }
    StepsReach(o, hi, step, k);
    MultipleOf(m, step);
    assert Quot(Steps(o, hi, step)[k], step) == m;
  }

  /** Every position of `ps` contributes its four sources to the reads. */
  lemma {:induction false} AllChildrenHas(c: Config, s: nat, z: int, ps: seq<Pos>, p: Pos, a: Address)
    requires c.tileWidth > 0 && c.tileHeight > 0 && s >= 1
    requires p in ps && a in Children(c, s, z, p).Elements()
    ensures a in AllChildren(c, s, z, ps)
    decreases |ps|
  {
    if ps[0] != p {
      AllChildrenHas(c, s, z, ps[1..], p, a);
    }
  }

  /** One axis of level 1 under the corrected starts, for the pixel extent
      of the inclusive tile range [lo, hi]: the block of every tile j of
      the range is visited. */
  lemma LevelOneAxisCovers(lo: int, hi: int, tile: int, j: int)
    requires tile > 0 && 0 <= lo <= j <= hi
    ensures var xs := AxisStarts(PairAligned, lo * tile, (hi + 1) * tile, tile, 1);
      exists k :: 0 <= k < |xs| && Quot(xs[k], 2 * tile) == j / 2
  {
    assert Pow2(0) == 1;
    MulMonotone(0, lo, tile);
    MulMonotone(lo, j, tile);
    MulMonotone(j + 1, hi + 1, tile);
    QuotOfNonNegative(lo * tile, 1);
    QuotOfNonNegative((hi + 1) * tile, 1);
    AlignedAxisCovers(lo * tile, (hi + 1) * tile, tile, j);
    assert AxisStarts(PairAligned, lo * tile, (hi + 1) * tile, tile, 1)
        == Steps(Origin(PairAligned, lo * tile, 2 * tile), (hi + 1) * tile, 2 * tile);
  }

  /** Level 1 of the corrected builder on non-negative tile ranges reads
      every level-0 tile of the range: for row r and column j in range some
      position's sources include tile (r, j). */
  lemma CorrectedLevelOneReadsEveryTile(p: Param, z: int, r: int, j: int)
    requires p.tileWidth > 0 && p.tileHeight > 0
    requires 0 <= p.minC <= j <= p.maxC && 0 <= p.minR <= r <= p.maxR
    ensures exists a :: a in AllChildren(ToConfig(p), 1, z, Positions(ToConfig(p), PairAligned, 1))
                        && a.row == r && a.col == j && a.level == 0
  {
    var c := ToConfig(p);
    LevelOneAxisCovers(p.minC, p.maxC, p.tileWidth, j);
    LevelOneAxisCovers(p.minR, p.maxR, p.tileHeight, r);
    var xs, ys := ColStarts(c, PairAligned, 1), RowStarts(c, PairAligned, 1);
    var kx :| 0 <= kx < |xs| && Quot(xs[kx], 2 * p.tileWidth) == j / 2;
    var ky :| 0 <= ky < |ys| && Quot(ys[ky], 2 * p.tileHeight) == r / 2;
    var pos := Pos(xs[kx], ys[ky]);
    RowMajorMembers(ys, xs, pos);
    var q := Children(c, 1, z, pos);
    var a := if r % 2 == 0 then (if j % 2 == 0 then q.topLeft else q.topRight)
             else (if j % 2 == 0 then q.bottomLeft else q.bottomRight);
    assert a in q.Elements();
    assert a.row == r && a.col == j && a.level == 0 by {
      assert 2 * (j / 2) + j % 2 == j && 2 * (r / 2) + r % 2 == r;
    }
    AllChildrenHas(c, 1, z, Positions(c, PairAligned, 1), pos, a);
  }

  /** Every read of a list of positions is a source of one of them. */
  lemma {:induction false} AllChildrenFrom(c: Config, s: nat, z: int, ps: seq<Pos>, a: Address)
    requires c.tileWidth > 0 && c.tileHeight > 0 && s >= 1
    requires a in AllChildren(c, s, z, ps)
    ensures exists i :: 0 <= i < |ps| && a in Children(c, s, z, ps[i]).Elements()
    decreases |ps|
  {
    if a !in Children(c, s, z, ps[0]).Elements() {
      AllChildrenFrom(c, s, z, ps[1..], a);
      var i :| 0 <= i < |ps| - 1 && a in Children(c, s, z, ps[1..][i]).Elements();
      assert ps[i + 1] == ps[1..][i];
    }
  }

  /** An odd number m of tiles ends in the middle of block (m - 1) / 2. */
  lemma OddTilesQuot(m: int, tile: int)
    requires tile > 0 && m >= 1 && m % 2 == 1
    ensures Quot(m * tile, 2 * tile) == (m - 1) / 2
  {
    var h := (m - 1) / 2;
    assert m == 2 * h + 1;
    assert m * tile == tile + h * (2 * tile);
    DivShift(tile, h, 2 * tile);
    assert tile / (2 * tile) == 0;
  }

  /** Level 1 of the source on a column range [minC, maxC] with odd minC
      and even maxC: the block of every position visited lies left of
      column maxC. */
  lemma AsWrittenBlocksEndBeforeLast(p: Param, k: int)
    requires p.tileWidth > 0 && p.tileHeight > 0
    requires 1 <= p.minC < p.maxC && p.minC % 2 == 1 && p.maxC % 2 == 0
    requires 0 <= k < |ColStarts(ToConfig(p), AsWritten, 1)|
    ensures 2 * Quot(ColStarts(ToConfig(p), AsWritten, 1)[k], 2 * p.tileWidth) + 1 < p.maxC
  {
    var tw := p.tileWidth;
    assert Pow2(0) == 1;
    QuotOfNonNegative(p.minC * tw, 1);
    MulMonotone(0, p.minC, tw);
    var xs := ColStarts(ToConfig(p), AsWritten, 1);
    assert xs == Steps(p.minC * tw, (p.maxC + 1) * tw, 2 * tw);
    var m := p.minC + 2 * k;
    assert xs[k] == m * tw by {
      assert p.minC * tw + k * (2 * tw) == m * tw;
    }
    MulCancelLess(m, p.maxC + 1, tw);
    OddTilesQuot(m, tw);
  }

  /** Level 1 of the source on a column range [minC, maxC] with odd minC
      and even maxC never reads column maxC, in any row or section. */
  lemma AsWrittenMissesLastColumn(p: Param, z: int)
    requires p.tileWidth > 0 && p.tileHeight > 0
    requires 1 <= p.minC < p.maxC && p.minC % 2 == 1 && p.maxC % 2 == 0
    ensures forall a :: a in AllChildren(ToConfig(p), 1, z, Positions(ToConfig(p), AsWritten, 1)) ==> a.col < p.maxC
  {
    var c := ToConfig(p);
    var ps := Positions(c, AsWritten, 1);
    forall a | a in AllChildren(c, 1, z, ps)
      ensures a.col < p.maxC
    {
      AllChildrenFrom(c, 1, z, ps, a);
      var i :| 0 <= i < |ps| && a in Children(c, 1, z, ps[i]).Elements();
      AsWrittenPositionMissesLast(p, z, ps[i]);
    }
  }

  /** One position of that level: its four reads lie left of column maxC. */
  lemma AsWrittenPositionMissesLast(p: Param, z: int, pos: Pos)
    requires p.tileWidth > 0 && p.tileHeight > 0
    requires 1 <= p.minC < p.maxC && p.minC % 2 == 1 && p.maxC % 2 == 0
    requires pos in Positions(ToConfig(p), AsWritten, 1)
    ensures forall a :: a in Children(ToConfig(p), 1, z, pos).Elements() ==> a.col < p.maxC
  {
    var c := ToConfig(p);
    var xs, ys := ColStarts(c, AsWritten, 1), RowStarts(c, AsWritten, 1);
    RowMajorMembers(ys, xs, pos);
    var k :| 0 <= k < |xs| && xs[k] == pos.x;
    AsWrittenBlocksEndBeforeLast(p, k);
    ChildrenFormBlock(c, 1, z, pos);
    assert Output(c, 1, z, pos).col == Quot(pos.x, 2 * p.tileWidth);
  }

  /** Column range 1..2, row 0, tiles 256 x 256: its level-0 pixel extent
      is [256, 768) x [0, 256). */
  const MISALIGNED: Param := Param(256, 256, 1, 2, 0, 0, 0, 0, false)

  /** On `MISALIGNED` the source's level 1 has a single position, at x =
      256, which reads column indices 0 and 1 only: column 2, inside the
      range, is never named by its index, and since the count is 1 the run
      stops there. The index and pixel arguments of the reads disagree: the
      top-right read has column index 1 but pixel argument 512, the first
      pixel of column 2, so the miss is one of a path template that names
      tiles by row and column. */
  lemma AsWrittenMissesColumn()
    ensures var c := ToConfig(MISALIGNED);
      && LevelCounts(c, AsWritten, 1) == [1]
      && (forall a :: a in AllChildren(c, 1, 0, Positions(c, AsWritten, 1)) ==> a.col != 2)
      && Children(c, 1, 0, Pos(256, 0)).topRight.col == 1
      && Children(c, 1, 0, Pos(256, 0)).topRight.xPixel == 2 * MISALIGNED.tileWidth
  {
    var c := ToConfig(MISALIGNED);
    assert c.minX == 256 && c.maxX == 768 && c.minY == 0 && c.maxY == 256;
    assert Pow2(0) == 1;
    assert ColStarts(c, AsWritten, 1) == Steps(256, 768, 512) == [256];
    assert RowStarts(c, AsWritten, 1) == Steps(0, 256, 512) == [0];
    assert Positions(c, AsWritten, 1) == [Pos(256, 0)];
    var q := Children(c, 1, 0, Pos(256, 0));
    assert AllChildren(c, 1, 0, [Pos(256, 0)]) == q.Elements();
  }

  /** The width bound on depth holds for the source's start only. On
      `MISALIGNED`, an extent two tiles wide (k = 1), the source builds one
      level, while the aligned start reaches back to pixel 0, sees three
      tiles of span and builds two. */
  lemma CorrectedDeeperOnNarrowExtent()
    ensures var c := ToConfig(MISALIGNED);
      && WellFormed(c)
      && c.maxX - c.minX == c.tileWidth * Pow2(1) && c.maxY - c.minY <= c.tileHeight * Pow2(1)
      && LevelCounts(c, AsWritten, 1) == [1]
      && LevelCounts(c, PairAligned, 1) == [2, 1]
  {
    var c := ToConfig(MISALIGNED);
    assert c.minX == 256 && c.maxX == 768 && c.minY == 0 && c.maxY == 256;
    assert Pow2(0) == 1 && Pow2(1) == 2;
    assert ColStarts(c, AsWritten, 1) == Steps(256, 768, 512) == [256];
    assert RowStarts(c, AsWritten, 1) == Steps(0, 256, 512) == [0];
    assert Origin(PairAligned, 256, 512) == 0 && Origin(PairAligned, 0, 512) == 0;
    assert ColStarts(c, PairAligned, 1) == Steps(0, 768, 512) == [0, 512];
    assert RowStarts(c, PairAligned, 1) == Steps(0, 256, 512) == [0];
    assert Origin(PairAligned, 128, 512) == 0;
    assert ColStarts(c, PairAligned, 2) == Steps(0, 384, 512) == [0];
    assert RowStarts(c, PairAligned, 2) == Steps(0, 128, 512) == [0];
    assert PositionCount(c, PairAligned, 1) == 2 && PositionCount(c, PairAligned, 2) == 1;
  }

  /** What level s of a section reads, the section reads. */
  lemma SectionReadsItsFirstLevel<P, T>(env: Env<P, T>, c: Config, rule: GridRule, z: int, s: nat, store: Store<P, T>, a: Address)
    requires WellFormed(c) && s >= 1
    requires a in AllChildren(c, s, z, Positions(c, rule, s))
    ensures a in RunSection(env, c, rule, z, s, store).readLog
  {
    var lv := RunLevel(env, c, rule, z, s, store);
    assert a in lv.readLog;
  }

  /** What level 1 of the first section reads, the run reads. */
  lemma RunReadsFirstLevel<P, T>(env: Env<P, T>, c: Config, rule: GridRule, store: Store<P, T>, a: Address)
    requires WellFormed(c) && c.minZ <= c.maxZ
    requires a in AllChildren(c, 1, c.minZ, Positions(c, rule, 1))
    ensures a in RunFrom(env, c, rule, c.minZ, store).readLog
  {
    SectionReadsItsFirstLevel(env, c, rule, c.minZ, 1, store, a);
  }

  /** The same range under the corrected starts: level 1 starts at x = 0
      and the run reads column 2. */
  lemma CorrectedScaleReadsColumn<P, T>(env: Env<P, T>, store: Store<P, T>)
    ensures WellFormed(ToConfig(MISALIGNED))
    ensures exists a :: a in ScaleCorrected(env, ToConfig(MISALIGNED), store).readLog && a.col == 2
  {
    var c := ToConfig(MISALIGNED);
    CorrectedLevelOneReadsEveryTile(MISALIGNED, 0, 0, 2);
    var a :| a in AllChildren(c, 1, 0, Positions(c, PairAligned, 1)) && a.col == 2;
    RunReadsFirstLevel(env, c, PairAligned, store, a);
  }

  /** The whole run of the source on `MISALIGNED` reads no address with
      column index 2. */
  lemma AsWrittenScaleMissesColumn<P, T>(env: Env<P, T>, store: Store<P, T>)
    ensures WellFormed(ToConfig(MISALIGNED))
    ensures forall a :: a in ScaleParam(env, MISALIGNED, store).readLog ==> a.col != 2
  {
    var c := ToConfig(MISALIGNED);
    AsWrittenMissesColumn();
    LevelCountIsGridSize(c, AsWritten, 1, 0);
    var lv := RunLevel(env, c, AsWritten, 0, 1, store);
    assert RunSection(env, c, AsWritten, 0, 1, store).readLog == lv.readLog;
    assert RunFrom(env, c, AsWritten, 1, RunSection(env, c, AsWritten, 0, 1, store).store).readLog == [];
  }

  /** Column range 2..5, row 0, tiles 256 x 256: level 1 is aligned (its
      positions start at x = 512), and the misalignment appears one level up. */
  const MISALIGNED_ABOVE: Param := Param(256, 256, 2, 5, 0, 0, 0, 0, false)

  /** On `MISALIGNED_ABOVE` the source's level 1 visits x = 512 and x = 1024,
      whose outputs are level-1 columns 1 and 2. Level 2 then has the single
      position x = 256, which reads level-1 columns 0 and 1 only, and the
      section stops there: level-1 column 2 is never read. */
  lemma AsWrittenMissesLevelTwo()
    ensures var c := ToConfig(MISALIGNED_ABOVE);
      && LevelCounts(c, AsWritten, 1) == [2, 1]
      && Positions(c, AsWritten, 1) == [Pos(512, 0), Pos(1024, 0)]
      && Output(c, 1, 0, Pos(512, 0)).col == 1 && Output(c, 1, 0, Pos(1024, 0)).col == 2
      && Positions(c, AsWritten, 2) == [Pos(256, 0)]
      && (forall z, a :: a in AllChildren(c, 2, z, Positions(c, AsWritten, 2)) ==> a.col != 2)
  {
    var c := ToConfig(MISALIGNED_ABOVE);
    assert c.minX == 512 && c.maxX == 1536 && c.minY == 0 && c.maxY == 256;
    assert Pow2(0) == 1 && Pow2(1) == 2;
    assert ColStarts(c, AsWritten, 1) == Steps(512, 1536, 512) == [512, 1024];
    assert RowStarts(c, AsWritten, 1) == Steps(0, 256, 512) == [0];
    assert Positions(c, AsWritten, 1) == [Pos(512, 0), Pos(1024, 0)];
    assert ColStarts(c, AsWritten, 2) == Steps(256, 768, 512) == [256];
    assert RowStarts(c, AsWritten, 2) == Steps(0, 128, 512) == [0];
    assert Positions(c, AsWritten, 2) == [Pos(256, 0)];
    assert LevelCounts(c, AsWritten, 2) == [1];
    forall z, a | a in AllChildren(c, 2, z, Positions(c, AsWritten, 2))
      ensures a.col != 2
    {
      assert AllChildren(c, 2, z, [Pos(256, 0)]) == Children(c, 2, z, Pos(256, 0)).Elements();
    }
  }

  /** The corrected start on the same range: level 2 starts at x = 0 and
      also visits x = 512, whose top-left read is level-1 column 2. */
  lemma CorrectedReadsLevelTwo()
    ensures var c := ToConfig(MISALIGNED_ABOVE);
      && Positions(c, PairAligned, 2) == [Pos(0, 0), Pos(512, 0)]
      && (forall z :: Children(c, 2, z, Pos(512, 0)).topLeft.col == 2 && Children(c, 2, z, Pos(512, 0)).topLeft.level == 1)
  {
    var c := ToConfig(MISALIGNED_ABOVE);
    assert c.minX == 512 && c.maxX == 1536 && c.minY == 0 && c.maxY == 256;
    assert Pow2(1) == 2;
    assert ColStarts(c, PairAligned, 2) == Steps(0, 768, 512) == [0, 512];
    assert RowStarts(c, PairAligned, 2) == Steps(0, 128, 512) == [0];
  }

  /** The source's whole run on `MISALIGNED_ABOVE` reads no level-1 tile
      with column index 2, although level 1 built one there. */
  lemma AsWrittenScaleMissesLevelTwo<P, T>(env: Env<P, T>, store: Store<P, T>)
    ensures WellFormed(ToConfig(MISALIGNED_ABOVE))
    ensures forall a :: a in ScaleParam(env, MISALIGNED_ABOVE, store).readLog && a.level == 1 ==> a.col != 2
  {
    var c := ToConfig(MISALIGNED_ABOVE);
    AsWrittenMissesLevelTwo();
    var one, two := AllChildren(c, 1, 0, Positions(c, AsWritten, 1)), AllChildren(c, 2, 0, Positions(c, AsWritten, 2));
    assert LevelReads(c, AsWritten, 0, 2) == two;
    assert RangeReads(c, AsWritten, 0) == one + two by {
      assert RangeReads(c, AsWritten, 1) == [];
      assert LevelReads(c, AsWritten, 0, 1) == one + two;
    }
  }

  /** The corrected run on the same range reads level-1 column 2. */
  lemma CorrectedScaleReadsLevelTwo<P, T>(env: Env<P, T>, store: Store<P, T>)
    ensures WellFormed(ToConfig(MISALIGNED_ABOVE))
    ensures exists a :: a in ScaleCorrected(env, ToConfig(MISALIGNED_ABOVE), store).readLog && a.level == 1 && a.col == 2
  {
    var c := ToConfig(MISALIGNED_ABOVE);
    CorrectedReadsLevelTwo();
    var a := Children(c, 2, 0, Pos(512, 0)).topLeft;
    assert Pow2(0) == 1;
    assert ColStarts(c, PairAligned, 1) == Steps(512, 1536, 512) == [512, 1024];
    assert RowStarts(c, PairAligned, 1) == Steps(0, 256, 512) == [0];
    assert |Positions(c, PairAligned, 1)| == 2;
    AllChildrenHas(c, 2, 0, Positions(c, PairAligned, 2), Pos(512, 0), a);
    var two := AllChildren(c, 2, 0, Positions(c, PairAligned, 2));
    assert a in LevelReads(c, PairAligned, 0, 2) by {
      assert LevelReads(c, PairAligned, 0, 2) == two || LevelReads(c, PairAligned, 0, 2) == two + LevelReads(c, PairAligned, 0, 3);
    }
    assert a in RangeReads(c, PairAligned, 0);
  }
}

=== FILE: grid.dfy ===
/** The grid of output positions the builder visits at one scale level, and
    the level-count sequence that the termination rule produces from it. */
module Grid {
  import opened JavaArith
  import opened Tiles

  /** The values `for (v = lo; v < hi; v += step)` visits, in order: the
      k-th is lo + k * step, every one is below hi, and one more stride
      would reach hi. */
  function Steps(lo: int, hi: int, step: int): (r: seq<int>)
    requires step > 0
    ensures forall k :: 0 <= k < |r| ==> r[k] == lo + k * step && r[k] < hi
    ensures lo + |r| * step >= hi
    decreases if lo < hi then hi - lo else 0
  {
    if lo < hi then
      var rest := Steps(lo + step, hi, step);
      assert forall k :: 1 <= k < |rest| + 1 ==> lo + step + (k - 1) * step == lo + k * step;
      assert lo + step + |rest| * step == lo + (|rest| + 1) * step;
      [lo] + rest
    else
      []
  }

  /** Where the loop along one axis starts. `AsWritten` is the source:
      the level's lower bound itself. `PairAligned` is the start rounded
      down to a multiple of the stride, so that positions line up with
      the 2x2 blocks of the level below (see the coverage lemmas). */
  datatype GridRule = AsWritten | PairAligned

  function Origin(rule: GridRule, lo: int, step: int): (r: int)
    requires step > 0
    ensures rule.AsWritten? ==> r == lo
    ensures rule.PairAligned? ==> r % step == 0 && r <= lo < r + step
    ensures lo >= 0 ==> r >= 0
  {
    match rule
    case AsWritten => lo
    case PairAligned =>
      MultipleOf(lo / step, step);
      (lo / step) * step
  }

  /** From a non-negative start, the k-th value visited lies in the k-th
      stride after the one holding the start: Java's quotient by the stride
      grows by exactly one per iteration. */
  lemma StepsQuot(lo: int, hi: int, step: int, k: int)
    requires step > 0 && lo >= 0 && 0 <= k < |Steps(lo, hi, step)|
    ensures Quot(Steps(lo, hi, step)[k], step) == Quot(lo, step) + k
  {
    DivShift(lo, k, step);
  }

  /** Loop starts along one axis at level s >= 1, from the level-0 bounds
      [minP, maxP) divided by `iScale1 = 1 << (s - 1)` and the stride of
      two tiles: `for (v = min / iScale1; v < max / iScale1; v += 2 * tile)`. */
  function AxisStarts(rule: GridRule, minP: int, maxP: int, tile: int, s: nat): seq<int>
    requires tile > 0 && s >= 1
  {
    var d := Pow2(s - 1);
    Steps(Origin(rule, Quot(minP, d), 2 * tile), Quot(maxP, d), 2 * tile)
  }

  /** The y values of the outer loop at level s. */
  function RowStarts(c: Config, rule: GridRule, s: nat): seq<int>
    requires c.tileHeight > 0 && s >= 1
  {
    AxisStarts(rule, c.minY, c.maxY, c.tileHeight, s)
  }

  /** The x values of the inner loop at level s. */
  function ColStarts(c: Config, rule: GridRule, s: nat): seq<int>
    requires c.tileWidth > 0 && s >= 1
  {
    AxisStarts(rule, c.minX, c.maxX, c.tileWidth, s)
  }

  /** The loop along one axis at level s: it is entered exactly when its
      start lies below the scaled upper bound; it starts at the rule's
      origin of the scaled lower bound; consecutive values are two tiles
      apart; all lie below the scaled upper bound, and the last is within
      one stride of it. The row starts and the column starts of
      `ScaleCATMAID.scale` are this loop on the y and on the x bounds. */
  lemma AxisStartsAreLoop(rule: GridRule, minP: int, maxP: int, tile: int, s: nat)
    requires tile > 0 && s >= 1
    ensures var d, xs := Pow2(s - 1), AxisStarts(rule, minP, maxP, tile, s);
      var o := Origin(rule, Quot(minP, d), 2 * tile);
      && (|xs| > 0 <==> o < Quot(maxP, d))
      && (|xs| > 0 ==> xs[0] == o && Quot(maxP, d) <= xs[|xs| - 1] + 2 * tile)
      && (forall k :: 0 <= k < |xs| - 1 ==> xs[k + 1] == xs[k] + 2 * tile)
      && (forall k :: 0 <= k < |xs| ==> xs[k] < Quot(maxP, d))
  {
    var d := Pow2(s - 1);
    var o := Origin(rule, Quot(minP, d), 2 * tile);
    var xs := Steps(o, Quot(maxP, d), 2 * tile);
    if |xs| > 0 {
      MulSucc(|xs| - 1, 2 * tile);
    }
    forall k | 0 <= k < |xs| - 1
      ensures xs[k + 1] == xs[k] + 2 * tile
    {
      MulSucc(k, 2 * tile);
    }
  }

  /** One visited position: the loop variables x and y, in level s-1 pixels. */
  datatype Pos = Pos(x: int, y: int)

  /** One pass of the inner loop at a fixed y. */
  function RowOf(y: int, xs: seq<int>): (r: seq<Pos>)
    ensures |r| == |xs|
    ensures forall j :: 0 <= j < |xs| ==> r[j] == Pos(xs[j], y)
  {
    seq(|xs|, j requires 0 <= j < |xs| => Pos(xs[j], y))
  }

  /** The positions of the nested loops in visiting order, y outer and x
      inner: one per pair of a row start and a column start. */
  function RowMajor(ys: seq<int>, xs: seq<int>): (r: seq<Pos>)
    ensures |r| == |ys| * |xs|
  {
    if |ys| == 0 then
      []
    else
      MulSucc(|ys| - 1, |xs|);
      RowOf(ys[0], xs) + RowMajor(ys[1..], xs)
  }

  /** The positions visited are exactly the pairs of a row start and a
      column start. */
  lemma {:induction false} RowMajorMembers(ys: seq<int>, xs: seq<int>, p: Pos)
    ensures p in RowMajor(ys, xs) <==> p.x in xs && p.y in ys
    decreases |ys|
  {
    if |ys| > 0 {
      RowMajorMembers(ys[1..], xs, p);
      assert p.y in ys <==> p.y == ys[0] || p.y in ys[1..];
      assert p in RowOf(ys[0], xs) <==> p.x in xs && p.y == ys[0] by {
        if p.x in xs && p.y == ys[0] {
          var j :| 0 <= j < |xs| && xs[j] == p.x;
          assert RowOf(ys[0], xs)[j] == p;
        }
      }
    }
  }

  /** Visiting order: the position of row i and column j is the
      (i * |xs| + j)-th one visited. */
  lemma {:induction false} RowMajorOrder(ys: seq<int>, xs: seq<int>, i: int, j: int)
    requires 0 <= i < |ys| && 0 <= j < |xs|
    ensures i * |xs| + j < |RowMajor(ys, xs)|
    ensures RowMajor(ys, xs)[i * |xs| + j] == Pos(xs[j], ys[i])
  {
    var n := |xs|;
    var k := i * n + j;
    var head := RowOf(ys[0], xs);
    var rest := RowMajor(ys[1..], xs);
    assert RowMajor(ys, xs) == head + rest;
    if i == 0 {
      assert k == j by {
        assert i * n == 0;
      }
    } else {
      var k' := (i - 1) * n + j;
      RowMajorOrder(ys[1..], xs, i - 1, j);
      assert k' < |rest| && rest[k'] == Pos(xs[j], ys[i]);
      assert k == n + k' by {
        MulSucc(i - 1, n);
      }
    }
  }

  /** Every position visited at level s, in visiting order. */
  function Positions(c: Config, rule: GridRule, s: nat): seq<Pos>
    requires c.tileWidth > 0 && c.tileHeight > 0 && s >= 1
  {
    RowMajor(RowStarts(c, rule, s), ColStarts(c, rule, s))
  }

  /** How many positions level s visits: one per pair of a row start and a
      column start. */
  function PositionCount(c: Config, rule: GridRule, s: nat): nat
    requires c.tileWidth > 0 && c.tileHeight > 0 && s >= 1
  {
    |RowStarts(c, rule, s)| * |ColStarts(c, rule, s)|
  }

  /** Once `1 << (s - 1)` reaches the extent limit it exceeds every extent
      coordinate, both bounds truncate to zero and the level has no
      position at all. */
  lemma EmptyBeyondExtent(c: Config, rule: GridRule, s: nat)
    requires WellFormed(c) && s >= 1
    requires Pow2(s - 1) >= EXTENT_LIMIT
    ensures |RowStarts(c, rule, s)| == 0
    ensures PositionCount(c, rule, s) == 0 && |Positions(c, rule, s)| == 0
  {
    var d := Pow2(s - 1);
    QuotOfSmall(c.minY, d);
    QuotOfSmall(c.maxY, d);
    assert Origin(rule, 0, 2 * c.tileHeight) == 0;
  }

  /** Largest level any run reaches: `1 << 30` is the largest power of two
      an `int` holds. */
  const MAX_LEVEL: nat := 30

  /** A measure that shrinks from level s to s + 1 while the level still
      has positions. */
  function LevelsLeft(s: nat): nat
    requires s >= 1
  {
    if Pow2(s - 1) >= EXTENT_LIMIT then 0 else EXTENT_LIMIT - Pow2(s - 1)
  }

  /** A level with more than one position has its scale factor below the
      extent limit, so the level loop's measure shrinks. */
  lemma BusyLevelWithinExtent(c: Config, rule: GridRule, s: nat)
    requires WellFormed(c) && s >= 1
    requires PositionCount(c, rule, s) > 1
    ensures Pow2(s - 1) < EXTENT_LIMIT
    ensures LevelsLeft(s + 1) < LevelsLeft(s)
  {
    if Pow2(s - 1) >= EXTENT_LIMIT {
      EmptyBeyondExtent(c, rule, s);
    }
    Pow2Increasing(s - 1, s);
  }

  /** The position counts of levels s, s + 1, ... up to and including the
      first level with at most one position. Level s + i has count r[i];
      every level but the last has more than one position; the last level
      but one lies below level 30, as its scale factor `1 << (s - 1)` is
      below the extent limit. */
  function LevelCounts(c: Config, rule: GridRule, s: nat): (r: seq<nat>)
    requires WellFormed(c) && s >= 1
    ensures |r| >= 1
    ensures r[0] == PositionCount(c, rule, s)
    ensures forall i :: 0 <= i < |r| - 1 ==> r[i] > 1
    ensures r[|r| - 1] <= 1
    ensures |r| >= 2 ==> s + |r| - 2 < MAX_LEVEL
    decreases LevelsLeft(s)
  {
    var n := PositionCount(c, rule, s);
    if n <= 1 then
      [n]
    else
      BusyLevelWithinExtent(c, rule, s);
      BelowExtentLimit(s - 1);
      var rest := LevelCounts(c, rule, s + 1);
      CountsCons(n, rest, s);
      [n] + rest
  }

  /** Prefixing the counts of the levels after s with the busy count of
      level s keeps the shape `LevelCounts` promises. */
  lemma CountsCons(n: nat, rest: seq<nat>, s: nat)
    requires n > 1 && 1 <= s < MAX_LEVEL && |rest| >= 1
    requires forall i :: 0 <= i < |rest| - 1 ==> rest[i] > 1
    requires rest[|rest| - 1] <= 1
    requires |rest| >= 2 ==> s + 1 + |rest| - 2 < MAX_LEVEL
    ensures var r := [n] + rest;
      && r[0] == n
      && (forall i :: 0 <= i < |r| - 1 ==> r[i] > 1)
      && r[|r| - 1] <= 1
      && s + |r| - 2 < MAX_LEVEL
  {
    var r := [n] + rest;
    assert r[|r| - 1] == rest[|rest| - 1];
    assert forall i :: 1 <= i < |r| ==> r[i] == rest[i - 1];
  }

  /** The i-th count is the number of positions of level s + i. */
  lemma {:induction false} LevelCountIsGridSize(c: Config, rule: GridRule, s: nat, i: nat)
    requires WellFormed(c) && s >= 1
    requires i < |LevelCounts(c, rule, s)|
    ensures LevelCounts(c, rule, s)[i] == |Positions(c, rule, s + i)|
    decreases i
  {
    if i > 0 {
      var rest := LevelCounts(c, rule, s + 1);
      assert LevelCounts(c, rule, s)[i] == rest[i - 1];
      LevelCountIsGridSize(c, rule, s + 1, i - 1);
    }
  }

  /** With the extent bound of `WellFormed`, no level past 30 is reached,
      so `1 << s` never overflows an `int`. */
  lemma LevelsStayInRange(c: Config, rule: GridRule)
    requires WellFormed(c)
    ensures |LevelCounts(c, rule, 1)| <= MAX_LEVEL
  {
  }

  /** A bound at most one stride past the start lets the loop run at
      most once. */
  lemma StepsAtMostOne(lo: int, hi: int, step: int)
    requires step > 0 && hi <= lo + step
    ensures |Steps(lo, hi, step)| <= 1
  {
    if lo < hi {
      assert Steps(lo + step, hi, step) == [];
    }
  }

  /** Once one level-s tile, `tile * (1 << s)` level-0 pixels wide, spans a
      non-negative extent along an axis, level s has at most one loop start
      along that axis: the scaled upper bound is at most one stride. */
  lemma AxisFitsOneTile(rule: GridRule, minP: int, maxP: int, tile: int, s: nat)
    requires tile > 0 && s >= 1 && minP >= 0
    requires maxP <= tile * Pow2(s)
    ensures |AxisStarts(rule, minP, maxP, tile, s)| <= 1
  {
    var d := Pow2(s - 1);
    Pow2Step(s - 1);
    assert tile * Pow2(s) == (2 * tile) * d;
    QuotAtMost(maxP, d, 2 * tile);
    StepsAtMostOne(Origin(rule, Quot(minP, d), 2 * tile), Quot(maxP, d), 2 * tile);
  }

  /** A level whose single tile spans a non-negative extent along both
      axes has at most one position, so the level loop stops there. */
  lemma LevelFitsOneTile(c: Config, rule: GridRule, s: nat)
    requires c.tileWidth > 0 && c.tileHeight > 0 && s >= 1
    requires c.minX >= 0 && c.minY >= 0
    requires c.maxX <= c.tileWidth * Pow2(s) && c.maxY <= c.tileHeight * Pow2(s)
    ensures PositionCount(c, rule, s) <= 1
  {
    AxisFitsOneTile(rule, c.minY, c.maxY, c.tileHeight, s);
    AxisFitsOneTile(rule, c.minX, c.maxX, c.tileWidth, s);
    var a, b := |RowStarts(c, rule, s)|, |ColStarts(c, rule, s)|;
    assert a * b <= 1 by {
      if a == 1 {
        assert a * b == b;
      }
    }
  }

  /** Depth from the size of the extent: on a non-negative extent that one
      level-s tile spans along both axes, a section builds at most s
      levels. */
  lemma DepthFitsExtent(c: Config, rule: GridRule, s: nat)
    requires WellFormed(c) && s >= 1
    requires c.minX >= 0 && c.minY >= 0
    requires c.maxX <= c.tileWidth * Pow2(s) && c.maxY <= c.tileHeight * Pow2(s)
    ensures |LevelCounts(c, rule, 1)| <= s
  {
    var r := LevelCounts(c, rule, 1);
    if |r| > s {
      LevelCountIsGridSize(c, rule, 1, s - 1);
      LevelFitsOneTile(c, rule, s);
    }
  }

  /** The depth in terms of tiles across: when 2^k level-0 tiles span a
      non-negative extent along both axes, a section builds at most k
      levels, and at least one even when k is 0. */
  lemma DepthWithinLog2(c: Config, rule: GridRule, k: nat)
    requires WellFormed(c)
    requires c.minX >= 0 && c.minY >= 0
    requires c.maxX <= c.tileWidth * Pow2(k) && c.maxY <= c.tileHeight * Pow2(k)
    ensures |LevelCounts(c, rule, 1)| <= if k == 0 then 1 else k
  {
    if k == 0 {
      assert Pow2(1) == 2;
      DepthFitsExtent(c, rule, 1);
    } else {
      DepthFitsExtent(c, rule, k);
    }
  }

  /** With the source's loop start, once one level-s tile is as wide as
      the extent along an axis, level s has at most one loop start along
      that axis, wherever the extent lies and whatever the signs of its
      bounds: the scaled bounds are at most one stride apart. */
  lemma AxisWidthOneTile(minP: int, maxP: int, tile: int, s: nat)
    requires tile > 0 && s >= 1
    requires maxP - minP <= tile * Pow2(s)
    ensures |AxisStarts(AsWritten, minP, maxP, tile, s)| <= 1
  {
    var d := Pow2(s - 1);
    ScaledBoundsWithinStride(minP, maxP, tile, s);
    StepsAtMostOne(Quot(minP, d), Quot(maxP, d), 2 * tile);
  }

  /** Scaling bounds at most one level-s tile apart by `1 << (s - 1)`
      leaves them at most one two-tile stride apart, also when Java's
      truncation rounds a negative bound up. */
  lemma ScaledBoundsWithinStride(minP: int, maxP: int, tile: int, s: nat)
    requires tile > 0 && s >= 1
    requires maxP - minP <= tile * Pow2(s)
    ensures Quot(maxP, Pow2(s - 1)) <= Quot(minP, Pow2(s - 1)) + 2 * tile
  {
    var d := Pow2(s - 1);
    Pow2Step(s - 1);
    assert Pow2(s) == 2 * d;
    assert tile * (2 * d) == (2 * tile) * d;
    QuotGap(minP, maxP, d, 2 * tile);
  }

  /** With the source's loop start, a level whose single tile is as wide
      and as high as the extent has at most one position. */
  lemma LevelWidthOneTile(c: Config, s: nat)
    requires c.tileWidth > 0 && c.tileHeight > 0 && s >= 1
    requires c.maxX - c.minX <= c.tileWidth * Pow2(s) && c.maxY - c.minY <= c.tileHeight * Pow2(s)
    ensures PositionCount(c, AsWritten, s) <= 1
  {
    AxisWidthOneTile(c.minY, c.maxY, c.tileHeight, s);
    AxisWidthOneTile(c.minX, c.maxX, c.tileWidth, s);
    var a, b := |RowStarts(c, AsWritten, s)|, |ColStarts(c, AsWritten, s)|;
    assert a * b <= 1 by {
      if a == 1 {
        assert a * b == b;
      }
    }
  }

  /** Depth from the width of the extent, with the source's loop start: on
      an extent at most one level-s tile wide and high, a section builds at
      most s levels. */
  lemma DepthFitsWidth(c: Config, s: nat)
    requires WellFormed(c) && s >= 1
    requires c.maxX - c.minX <= c.tileWidth * Pow2(s) && c.maxY - c.minY <= c.tileHeight * Pow2(s)
    ensures |LevelCounts(c, AsWritten, 1)| <= s
  {
    var r := LevelCounts(c, AsWritten, 1);
    if |r| > s {
      LevelCountIsGridSize(c, AsWritten, 1, s - 1);
      LevelWidthOneTile(c, s);
    }
  }

  /** The depth in terms of tiles across, with the source's loop start:
      when the extent is at most 2^k level-0 tiles wide and high, a section builds at most k levels, and at least one even when
      k is 0. */
  lemma DepthWithinLog2Across(c: Config, k: nat)
    requires WellFormed(c)
    requires c.maxX - c.minX <= c.tileWidth * Pow2(k) && c.maxY - c.minY <= c.tileHeight * Pow2(k)
    ensures |LevelCounts(c, AsWritten, 1)| <= if k == 0 then 1 else k
  {
    if k == 0 {
      assert Pow2(1) == 2;
      DepthFitsWidth(c, 1);
    } else {
      DepthFitsWidth(c, k);
    }
  }

  /** One 256-pixel tile: log2 of the tiles across is 0, yet level 1 runs. */
  const SINGLE_TILE: Config := Config(256, 256, 0, 256, 0, 256, 0, 0, false)

  lemma SingleTileDepth(rule: GridRule)
    ensures WellFormed(SINGLE_TILE)
    ensures LevelCounts(SINGLE_TILE, rule, 1) == [1]
  {
    var c := SINGLE_TILE;
    assert Pow2(0) == 1;
    assert Origin(rule, 0, 512) == 0;
    assert RowStarts(c, rule, 1) == ColStarts(c, rule, 1) == Steps(0, 256, 512) == [0];
  }

  /** A power of two below the extent limit has exponent at most 28. */
  lemma BelowExtentLimit(k: nat)
    requires Pow2(k) < EXTENT_LIMIT
    ensures k < 29
  {
    ExtentLimitIsPow2();
    Pow2Below(k, 29);
  }
}

=== FILE: java_arith.dfy ===
/** Java integer arithmetic used by the pyramid builder, written out over
    unbounded integers: `1 << n` for the shifts that stay in range, and the
    truncating quotient of Java's `/` on `int` and `long`. */
module JavaArith {

  /** Largest value of a Java `int`. */
  const INT_MAX: int := 0x7fff_ffff

  /** Smallest and largest values of a Java `long`. */
  const LONG_MIN: int := -0x8000_0000_0000_0000
  const LONG_MAX: int := 0x7fff_ffff_ffff_ffff

  /** `1 << n` for an `int` shift that does not overflow (n <= 30). */
  function Pow2(n: nat): (r: nat)
    ensures r >= 1
    ensures n > 0 ==> r % 2 == 0
  {
    if n == 0 then 1 else 2 * Pow2(n - 1)
  }

  /** Java's `a / d` for a positive divisor: the quotient truncated toward
      zero, which for a negative dividend differs from Dafny's `/`. */
  function Quot(a: int, d: int): (r: int)
    requires d > 0
    ensures 0 <= a ==> 0 <= r && r * d <= a < r * d + d
    ensures a < 0 ==> r <= 0 && r * d - d < a <= r * d
  {
    if a >= 0 then
      DivBounds(a, d);
      a / d
    else
      DivBounds(-a, d);
      NegMul((-a) / d, d);
      -((-a) / d)
  }

  /** Dafny's quotient of a non-negative dividend is its floor. */
  lemma DivBounds(a: int, d: int)
    requires a >= 0 && d > 0
    ensures 0 <= a / d && (a / d) * d <= a < (a / d) * d + d
  {
    var q, m := a / d, a % d;
    assert a == q * d + m && 0 <= m < d;
  }

  lemma NegMul(q: int, d: int)
    ensures (-q) * d == -(q * d)
  {
  }

  lemma Pow2Step(n: nat)
    ensures Pow2(n + 1) == 2 * Pow2(n)
  {
  }

  /** Doubling the shift strictly increases `1 << n`. */
  lemma {:induction false} Pow2Increasing(m: nat, n: nat)
    requires m < n
    ensures Pow2(m) < Pow2(n)
    decreases n
  {
    if m < n - 1 {
      Pow2Increasing(m, n - 1);
    }
  }

  /** `1 << n` is below `1 << m` only for a smaller shift. */
  lemma Pow2Below(n: nat, m: nat)
    requires Pow2(n) < Pow2(m)
    ensures n < m
  {
    if m < n {
      Pow2Increasing(m, n);
    }
  }

  /** A multiple of d divides back exactly. */
  lemma MultipleOf(q: int, d: int)
    requires d > 0
    ensures (q * d) / d == q && (q * d) % d == 0
  {
    var a := q * d;
    var t := q - a / d;
    assert a == (a / d) * d + a % d && 0 <= a % d < d;
    assert t * d == a % d;
  }

  /** Shifting a dividend by whole multiples of d shifts the floor quotient. */
  lemma DivShift(a: int, k: int, d: int)
    requires d > 0
    ensures (a + k * d) / d == a / d + k
  {
    var q, m := a / d, a % d;
    assert a + k * d == (q + k) * d + m && 0 <= m < d;
    var b := a + k * d;
    var t := (q + k) - b / d;
    assert b == (b / d) * d + b % d && 0 <= b % d < d;
    assert t * d == b % d - m;
  }

  /** n copies of d followed by one more. */
  lemma MulSucc(n: int, d: int)
    ensures (n + 1) * d == n * d + d
  {
  }

  /** A dividend strictly inside (-d, d) truncates to zero. */
  lemma QuotOfSmall(a: int, d: int)
    requires d > 0 && -d < a < d
    ensures Quot(a, d) == 0
  {
  }

  /** A dividend at most m times the divisor has a quotient of at most m. */
  lemma QuotAtMost(a: int, d: int, m: int)
    requires d > 0 && m >= 0 && a <= m * d
    ensures Quot(a, d) <= m
  {
  }

  /** A product with a positive factor d is strictly monotone in the
      other factor. */
  lemma MulCancelStrict(x: int, y: int, d: int)
    requires d > 0 && x * d < y * d
    ensures x < y
  {
    assert (y - x) * d == y * d - x * d;
  }

  /** Floor division of non-negative dividends is monotone. */
  lemma DivMonotone(x: int, y: int, d: int)
    requires d > 0 && 0 <= x <= y
    ensures x / d <= y / d
  {
    DivBounds(x, d);
    DivBounds(y, d);
    assert (x / d) * d < (y / d + 1) * d by {
      assert (y / d + 1) * d == (y / d) * d + d;
    }
    MulCancelStrict(x / d, y / d + 1, d);
  }

  /** The floors of two non-negative quotients add up to at most the floor
      of the quotient of the sum. */
  lemma DivSuperAdditive(x: int, y: int, d: int)
    requires d > 0 && 0 <= x && 0 <= y
    ensures x / d + y / d <= (x + y) / d
  {
    DivBounds(x, d);
    DivBounds(y, d);
    DivBounds(x + y, d);
    assert (x / d + y / d) * d == (x / d) * d + (y / d) * d;
    assert (x / d + y / d) * d < ((x + y) / d + 1) * d by {
      assert ((x + y) / d + 1) * d == ((x + y) / d) * d + d;
    }
    MulCancelStrict(x / d + y / d, (x + y) / d + 1, d);
  }

  /** A dividend at most k divisors above another has a Java quotient at
      most k above the other's, whatever the signs. */
  lemma QuotGap(a: int, b: int, d: int, k: int)
    requires d > 0 && k >= 0 && b <= a + k * d
    ensures Quot(b, d) <= Quot(a, d) + k
  {
    if a >= 0 && b >= 0 {
      DivShift(a, k, d);
      DivMonotone(b, a + k * d, d);
    } else if a < 0 && b < 0 {
      var A, B := -a, -b;
      if A - k * d >= 0 {
        DivShift(A, -k, d);
        assert A + (-k) * d == A - k * d;
        DivMonotone(A - k * d, B, d);
      } else {
        DivBounds(A, d);
        MulCancelStrict(A / d, k, d);
      }
    } else if a < 0 && b >= 0 {
      var A := -a;
      DivSuperAdditive(b, A, d);
      DivMonotone(b + A, k * d, d);
      MultipleOf(k, d);
    }
  }

  /** On a non-negative dividend Java's quotient is floor division. */
  lemma QuotOfNonNegative(a: int, d: int)
    requires d > 0 && 0 <= a
    ensures Quot(a, d) == a / d
  {
  }
}

=== FILE: pyramid.dfy ===
/** The control logic of `ScaleCATMAID.scale`: one position, one level
    (the nested y/x loops), one z-section (levels until the termination
    rule fires) and the whole z range. Storage is threaded through every
    step, so a level reads what the previous level wrote. */
module Pyramid {
  import opened JavaArith
  import opened Tiles
  import opened Grid
  import opened Addressing

  /** State of one level's loops: storage, the addresses read and written
      so far, `nResultTiles` and `workToDo`. */
  datatype LevelState<P(==), T> = LevelState(
    store: Store<P, T>,
    readLog: seq<Address>,
    writeLog: seq<Address>,
    count: nat,
    workToDo: bool)

  /** The four `open` calls on the addresses of a 2x2 block. */
  function ReadQuad<P(==), T>(env: Env<P, T>, store: Store<P, T>, q: Quad<Address>): Quad<Source<T>>
  {
    Quad(Open(Lookup(store, env.path(q.topLeft))), Open(Lookup(store, env.path(q.topRight))),
         Open(Lookup(store, env.path(q.bottomLeft))), Open(Lookup(store, env.path(q.bottomRight))))
  }

  /** The four reads are all the placeholder exactly when each of the four
      paths holds a missing file or one whose read throws an IOException;
      the reads look at storage only under those four paths. */
  lemma ReadQuadSkips<P, T>(env: Env<P, T>, store: Store<P, T>, q: Quad<Address>, other: Store<P, T>)
    ensures AllAlternative(ReadQuad(env, store, q)) <==>
      forall i :: 0 <= i < 4 ==>
        Lookup(store, env.path(q.Elements()[i])).Missing? || Lookup(store, env.path(q.Elements()[i])).Unreadable?
    ensures (forall i :: 0 <= i < 4 ==> Lookup(store, env.path(q.Elements()[i])) == Lookup(other, env.path(q.Elements()[i])))
      ==> ReadQuad(env, store, q) == ReadQuad(env, other, q)
  {
    var e := q.Elements();
    assert e[0] == q.topLeft && e[1] == q.topRight && e[2] == q.bottomLeft && e[3] == q.bottomRight;
  }

  /** What position p reads from `store` at level s. */
  function Sources<P(==), T>(env: Env<P, T>, c: Config, s: nat, z: int, p: Pos, store: Store<P, T>): Quad<Source<T>>
    requires c.tileWidth > 0 && c.tileHeight > 0 && s >= 1
  {
    ReadQuad(env, store, Children(c, s, z, p))
  }

  /** The write condition of position p against `store`: at least one source
      is not the placeholder, and the downsampler reports content or empty
      tiles are not being ignored. */
  predicate Writes<P(==), T>(env: Env<P, T>, c: Config, s: nat, z: int, p: Pos, store: Store<P, T>)
    requires c.tileWidth > 0 && c.tileHeight > 0 && s >= 1
  {
    var src := Sources(env, c, s, z, p, store);
    !AllAlternative(src) && (env.downsample(src).notEmpty || !c.ignoreEmptyTiles)
  }

  /** A position writes exactly when one of its four source files exists
      and reads without an exception, and the downsampler reports content
      or empty tiles are not being ignored. */
  lemma WritesIff<P, T>(env: Env<P, T>, c: Config, s: nat, z: int, p: Pos, store: Store<P, T>)
    requires c.tileWidth > 0 && c.tileHeight > 0 && s >= 1
    ensures Writes(env, c, s, z, p, store) <==>
      && (exists i :: 0 <= i < 4 &&
            var f := Lookup(store, env.path(Children(c, s, z, p).Elements()[i])); !f.Missing? && !f.Unreadable?)
      && (env.downsample(Sources(env, c, s, z, p, store)).notEmpty || !c.ignoreEmptyTiles)
  {
    ReadQuadSkips(env, store, Children(c, s, z, p), store);
  }

  /** One iteration of the inner loop: count the position, read the four
      sources, skip when all four are the placeholder, otherwise downsample
      and write the output tile when the write condition holds; what the
      written file holds is what a later read will find in it. The count
      grows by one whether or not the position is skipped; a write changes
      storage only under the output's path. */
  function Visit<P(==), T>(env: Env<P, T>, c: Config, s: nat, z: int, p: Pos, st: LevelState<P, T>): (r: LevelState<P, T>)
    requires c.tileWidth > 0 && c.tileHeight > 0 && s >= 1
    ensures r.count == st.count + 1 && r.workToDo == st.workToDo
    ensures r.readLog == st.readLog + Children(c, s, z, p).Elements()
  {
    var kids := Children(c, s, z, p);
    var src := ReadQuad(env, st.store, kids);
    var counted := st.(count := st.count + 1, readLog := st.readLog + kids.Elements());
    if AllAlternative(src) then
      counted
    else
      var d := env.downsample(src);
      if d.notEmpty || !c.ignoreEmptyTiles then
        var out := Output(c, s, z, p);
        counted.(store := counted.store[env.path(out) := env.stored(d.pixels)], writeLog := counted.writeLog + [out])
      else
        counted
  }

  /** A visit whose four sources are all the placeholder changes neither
      the write log nor storage; any visit changes storage only under the
      path of the position's output tile; a visit that writes leaves there
      the stored form of the downsampled pixels. */
  lemma VisitStore<P, T>(env: Env<P, T>, c: Config, s: nat, z: int, p: Pos, st: LevelState<P, T>)
    requires c.tileWidth > 0 && c.tileHeight > 0 && s >= 1
    ensures Visit(env, c, s, z, p, st).writeLog == st.writeLog + WrittenOutput(env, c, s, z, p, st.store)
    ensures AllAlternative(Sources(env, c, s, z, p, st.store)) ==>
      Visit(env, c, s, z, p, st).writeLog == st.writeLog && Visit(env, c, s, z, p, st).store == st.store
    ensures Visit(env, c, s, z, p, st).store.Keys <= st.store.Keys + {env.path(Output(c, s, z, p))}
    ensures forall q :: q in st.store && q != env.path(Output(c, s, z, p)) ==>
      q in Visit(env, c, s, z, p, st).store && Visit(env, c, s, z, p, st).store[q] == st.store[q]
    ensures Writes(env, c, s, z, p, st.store) ==>
      var q := env.path(Output(c, s, z, p));
      q in Visit(env, c, s, z, p, st).store
      && Visit(env, c, s, z, p, st).store[q] == env.stored(env.downsample(Sources(env, c, s, z, p, st.store)).pixels)
  {
  }

  /** The sources of every position of `ps`, four per position, in order. */
  function AllChildren(c: Config, s: nat, z: int, ps: seq<Pos>): (r: seq<Address>)
    requires c.tileWidth > 0 && c.tileHeight > 0 && s >= 1
    ensures |r| == 4 * |ps|
    ensures forall i :: 0 <= i < |r| ==> r[i].level == s - 1 && r[i].z == z
  {
    if |ps| == 0 then [] else Children(c, s, z, ps[0]).Elements() + AllChildren(c, s, z, ps[1..])
  }

  /** Visits the positions of `ps` in order. */
  function VisitAll<P(==), T>(env: Env<P, T>, c: Config, s: nat, z: int, ps: seq<Pos>, st: LevelState<P, T>): (r: LevelState<P, T>)
    requires c.tileWidth > 0 && c.tileHeight > 0 && s >= 1
    ensures r.count == st.count + |ps| && r.workToDo == st.workToDo
    decreases |ps|
  {
    if |ps| == 0 then
      st
    else
      VisitAll(env, c, s, z, ps[1..], Visit(env, c, s, z, ps[0], st))
  }

  /** Visiting `ps` reads the four sources of every position in order and
      writes only level-s tiles of section z. */
  lemma {:induction false} VisitAllLogs<P, T>(env: Env<P, T>, c: Config, s: nat, z: int, ps: seq<Pos>, st: LevelState<P, T>)
    requires c.tileWidth > 0 && c.tileHeight > 0 && s >= 1
    ensures VisitAll(env, c, s, z, ps, st).readLog == st.readLog + AllChildren(c, s, z, ps)
    ensures forall w :: w in VisitAll(env, c, s, z, ps, st).writeLog ==> w in st.writeLog || (w.level == s && w.z == z)
    decreases |ps|
  {
    if |ps| > 0 {
      var next := Visit(env, c, s, z, ps[0], st);
      VisitAllLogs(env, c, s, z, ps[1..], next);
      assert st.readLog + AllChildren(c, s, z, ps) == next.readLog + AllChildren(c, s, z, ps[1..]);
      assert forall w :: w in next.writeLog ==> w in st.writeLog || (w.level == s && w.z == z) by {
        VisitStore(env, c, s, z, ps[0], st);
        if Writes(env, c, s, z, ps[0], st.store) {
          assert Output(c, s, z, ps[0]).level == s;
        }
      }
    }
  }

  /** The outer loop: every row sets `workToDo` and runs the inner loop.
      Every position of every row is counted once, and the flag ends set
      exactly when some row was entered. */
  function VisitRows<P(==), T>(env: Env<P, T>, c: Config, s: nat, z: int, ys: seq<int>, xs: seq<int>, st: LevelState<P, T>): (r: LevelState<P, T>)
    requires c.tileWidth > 0 && c.tileHeight > 0 && s >= 1
    ensures r.count == st.count + |ys| * |xs|
    ensures r.workToDo <==> st.workToDo || |ys| > 0
    decreases |ys|
  {
    if |ys| == 0 then
      st
    else
      MulSucc(|ys| - 1, |xs|);
      VisitRows(env, c, s, z, ys[1..], xs, VisitAll(env, c, s, z, RowOf(ys[0], xs), st.(workToDo := true)))
  }

  /** Visiting a concatenation is visiting one part after the other. */
  lemma {:induction false} VisitAllAppend<P, T>(env: Env<P, T>, c: Config, s: nat, z: int, a: seq<Pos>, b: seq<Pos>, st: LevelState<P, T>)
    requires c.tileWidth > 0 && c.tileHeight > 0 && s >= 1
    ensures VisitAll(env, c, s, z, a + b, st) == VisitAll(env, c, s, z, b, VisitAll(env, c, s, z, a, st))
    decreases |a|
  {
    if |a| == 0 {
      assert a + b == b;
    } else {
      var next := Visit(env, c, s, z, a[0], st);
      assert (a + b)[0] == a[0] && (a + b)[1..] == a[1..] + b;
      assert VisitAll(env, c, s, z, a + b, st) == VisitAll(env, c, s, z, a[1..] + b, next);
      VisitAllAppend(env, c, s, z, a[1..], b, next);
    }
  }

  /** The nested loops visit the row-major sequence of positions; the flag
      ends set exactly when some row was entered. */
  lemma {:induction false} VisitRowsIsRowMajor<P, T>(env: Env<P, T>, c: Config, s: nat, z: int, ys: seq<int>, xs: seq<int>, st: LevelState<P, T>)
    requires c.tileWidth > 0 && c.tileHeight > 0 && s >= 1
    ensures VisitRows(env, c, s, z, ys, xs, st)
         == VisitAll(env, c, s, z, RowMajor(ys, xs), st).(workToDo := st.workToDo || |ys| > 0)
    decreases |ys|
  {
    if |ys| > 0 {
      var head := RowOf(ys[0], xs);
      var st1 := st.(workToDo := true);
      var mid := VisitAll(env, c, s, z, head, st1);
      VisitRowsIsRowMajor(env, c, s, z, ys[1..], xs, mid);
      VisitAllAppend(env, c, s, z, head, RowMajor(ys[1..], xs), st1);
      VisitAllAppend(env, c, s, z, head, RowMajor(ys[1..], xs), st);
      VisitAllIgnoresFlag(env, c, s, z, RowMajor(ys, xs), st, true);
    }
  }

  /** The visits never look at `workToDo`. */
  lemma {:induction false} VisitAllIgnoresFlag<P, T>(env: Env<P, T>, c: Config, s: nat, z: int, ps: seq<Pos>, st: LevelState<P, T>, flag: bool)
    requires c.tileWidth > 0 && c.tileHeight > 0 && s >= 1
    ensures VisitAll(env, c, s, z, ps, st.(workToDo := flag)) == VisitAll(env, c, s, z, ps, st).(workToDo := flag)
    decreases |ps|
  {
    if |ps| > 0 {
      var next := Visit(env, c, s, z, ps[0], st);
      assert Visit(env, c, s, z, ps[0], st.(workToDo := flag)) == next.(workToDo := flag);
      VisitAllIgnoresFlag(env, c, s, z, ps[1..], next, flag);
    }
  }

  /** One scale level of `ScaleCATMAID.scale` (the body of its level
      loop) started on `store`: `nResultTiles` is the number of grid
      positions, skipped ones included, so it does not depend on the tiles; the reads are the four sources of every position
      in visiting order; every write is a level-s tile of section z; and
      the loop goes on to the next level exactly when the count exceeds 1. */
  function RunLevel<P(==), T>(env: Env<P, T>, c: Config, rule: GridRule, z: int, s: nat, store: Store<P, T>): (r: LevelState<P, T>)
    requires c.tileWidth > 0 && c.tileHeight > 0 && s >= 1
    ensures r.count == |Positions(c, rule, s)|
    ensures r.workToDo <==> r.count > 1
    ensures r.readLog == AllChildren(c, s, z, Positions(c, rule, s))
    ensures forall i :: 0 <= i < |r.writeLog| ==> r.writeLog[i].level == s && r.writeLog[i].z == z
  {
    var ys, xs := RowStarts(c, rule, s), ColStarts(c, rule, s);
    var start := LevelState(store, [], [], 0, false);
    VisitAllLogs(env, c, s, z, RowMajor(ys, xs), start);
    var st := VisitAll(env, c, s, z, RowMajor(ys, xs), start).(workToDo := |ys| > 0);
    if st.count <= 1 then st.(workToDo := false) else st
  }

  /** The level is the source's nested loops: the outer loop over the row
      starts, the inner one over the column starts, then `workToDo` cleared
      when at most one position was visited. */
  lemma RunLevelIsNestedLoops<P, T>(env: Env<P, T>, c: Config, rule: GridRule, z: int, s: nat, store: Store<P, T>)
    requires c.tileWidth > 0 && c.tileHeight > 0 && s >= 1
    ensures var st := VisitRows(env, c, s, z, RowStarts(c, rule, s), ColStarts(c, rule, s), LevelState(store, [], [], 0, false));
      RunLevel(env, c, rule, z, s, store) == if st.count <= 1 then st.(workToDo := false) else st
  {
    VisitRowsIsRowMajor(env, c, s, z, RowStarts(c, rule, s), ColStarts(c, rule, s), LevelState(store, [], [], 0, false));
  }

  /** The path template keeps levels apart: the level of an address can be
      read back off its path (`levelOf`), so addresses of different levels
      never render to the same path. */
  ghost predicate LevelSeparating<P, T>(env: Env<P, T>, levelOf: P -> int)
  {
    forall a: Address :: levelOf(env.path(a)) == a.level
  }

  /** Two stores hold the same thing under the path of every level-l address. */
  ghost predicate AgreeOnLevel<P, T>(env: Env<P, T>, store1: Store<P, T>, store2: Store<P, T>, l: int)
  {
    forall a: Address :: a.level == l ==> Lookup(store1, env.path(a)) == Lookup(store2, env.path(a))
  }

  /** The first position's share of the reference outputs. */
  function WrittenOutput<P(==), T>(env: Env<P, T>, c: Config, s: nat, z: int, p: Pos, store: Store<P, T>): seq<Address>
    requires c.tileWidth > 0 && c.tileHeight > 0 && s >= 1
  {
    if Writes(env, c, s, z, p, store) then [Output(c, s, z, p)] else []
  }

  /** Reference for what a level writes: the outputs of those positions of
      `ps` whose write condition holds against the single store the level
      started on, in visiting order. */
  function WrittenOutputs<P(==), T>(env: Env<P, T>, c: Config, s: nat, z: int, ps: seq<Pos>, store: Store<P, T>): seq<Address>
    requires c.tileWidth > 0 && c.tileHeight > 0 && s >= 1
  {
    if |ps| == 0 then
      []
    else
      WrittenOutput(env, c, s, z, ps[0], store) + WrittenOutputs(env, c, s, z, ps[1..], store)
  }

  /** Every output in the reference comes from a position of `ps` that
      passes the write condition. */
  lemma {:induction false} WrittenOutputsFrom<P, T>(env: Env<P, T>, c: Config, s: nat, z: int, ps: seq<Pos>, store: Store<P, T>, o: Address)
    requires c.tileWidth > 0 && c.tileHeight > 0 && s >= 1
    requires o in WrittenOutputs(env, c, s, z, ps, store)
    ensures exists i :: 0 <= i < |ps| && Writes(env, c, s, z, ps[i], store) && o == Output(c, s, z, ps[i])
    decreases |ps|
  {
    var rest := ps[1..];
    if o in WrittenOutputs(env, c, s, z, rest, store) {
      WrittenOutputsFrom(env, c, s, z, rest, store, o);
      var i :| 0 <= i < |rest| && Writes(env, c, s, z, rest[i], store) && o == Output(c, s, z, rest[i]);
      assert ps[i + 1] == rest[i];
    } else {
      assert o in WrittenOutput(env, c, s, z, ps[0], store);
    }
  }

  /** Every position of `ps` that passes the write condition has its
      output in the reference. */
  lemma {:induction false} WrittenOutputsHas<P, T>(env: Env<P, T>, c: Config, s: nat, z: int, ps: seq<Pos>, store: Store<P, T>, i: int)
    requires c.tileWidth > 0 && c.tileHeight > 0 && s >= 1
    requires 0 <= i < |ps| && Writes(env, c, s, z, ps[i], store)
    ensures Output(c, s, z, ps[i]) in WrittenOutputs(env, c, s, z, ps, store)
    decreases |ps|
  {
    if i > 0 {
      var rest := ps[1..];
      assert rest[i - 1] == ps[i];
      WrittenOutputsHas(env, c, s, z, rest, store, i - 1);
    }
  }

  /** A visit leaves every level s-1 path alone when the template keeps
      levels apart, so the level's sources stay as they were. */
  lemma VisitKeepsSources<P, T>(env: Env<P, T>, levelOf: P -> int, c: Config, s: nat, z: int, p: Pos, st: LevelState<P, T>, store0: Store<P, T>)
    requires c.tileWidth > 0 && c.tileHeight > 0 && s >= 1
    requires LevelSeparating(env, levelOf) && AgreeOnLevel(env, st.store, store0, s - 1)
    ensures Writes(env, c, s, z, p, st.store) == Writes(env, c, s, z, p, store0)
    ensures AgreeOnLevel(env, Visit(env, c, s, z, p, st).store, store0, s - 1)
  {
    var out := Output(c, s, z, p);
    var r := Visit(env, c, s, z, p, st);
    VisitStore(env, c, s, z, p, st);
    assert Sources(env, c, s, z, p, st.store) == Sources(env, c, s, z, p, store0) by {
      var kids := Children(c, s, z, p);
      assert kids.topLeft in kids.Elements() && kids.topRight in kids.Elements();
      assert kids.bottomLeft in kids.Elements() && kids.bottomRight in kids.Elements();
    }
    forall a: Address | a.level == s - 1
      ensures Lookup(r.store, env.path(a)) == Lookup(store0, env.path(a))
    {
      assert env.path(a) != env.path(out);
    }
  }

  /** One step of the reference: the first visit writes the first
      position's share and keeps the level s-1 paths as they were. */
  lemma ReferenceStep<P, T>(env: Env<P, T>, levelOf: P -> int, c: Config, s: nat, z: int, ps: seq<Pos>, st: LevelState<P, T>, store0: Store<P, T>)
    requires c.tileWidth > 0 && c.tileHeight > 0 && s >= 1 && |ps| > 0
    requires LevelSeparating(env, levelOf) && AgreeOnLevel(env, st.store, store0, s - 1)
    ensures Visit(env, c, s, z, ps[0], st).writeLog == st.writeLog + WrittenOutput(env, c, s, z, ps[0], store0)
    ensures AgreeOnLevel(env, Visit(env, c, s, z, ps[0], st).store, store0, s - 1)
    ensures VisitAll(env, c, s, z, ps, st) == VisitAll(env, c, s, z, ps[1..], Visit(env, c, s, z, ps[0], st))
    ensures WrittenOutputs(env, c, s, z, ps, store0)
         == WrittenOutput(env, c, s, z, ps[0], store0) + WrittenOutputs(env, c, s, z, ps[1..], store0)
  {
    VisitKeepsSources(env, levelOf, c, s, z, ps[0], st, store0);
  }

  /** Visiting `ps` from a store that agrees with `store0` on level s-1
      writes exactly the reference outputs computed against `store0`. */
  lemma {:induction false} VisitAllMatchesReference<P, T>(env: Env<P, T>, levelOf: P -> int, c: Config, s: nat, z: int, ps: seq<Pos>, st: LevelState<P, T>, store0: Store<P, T>)
    requires c.tileWidth > 0 && c.tileHeight > 0 && s >= 1
    requires LevelSeparating(env, levelOf) && AgreeOnLevel(env, st.store, store0, s - 1)
    ensures VisitAll(env, c, s, z, ps, st).writeLog == st.writeLog + WrittenOutputs(env, c, s, z, ps, store0)
    decreases |ps|
  {
    if |ps| == 0 {
      assert st.writeLog + [] == st.writeLog;
    } else {
      ReferenceStep(env, levelOf, c, s, z, ps, st, store0);
      var next := Visit(env, c, s, z, ps[0], st);
      VisitAllMatchesReference(env, levelOf, c, s, z, ps[1..], next, store0);
      var head := WrittenOutput(env, c, s, z, ps[0], store0);
      var tail := WrittenOutputs(env, c, s, z, ps[1..], store0);
      assert (st.writeLog + head) + tail == st.writeLog + (head + tail);
    }
  }

  /** A level's writes are the reference outputs over its positions in
      visiting order, judged against the store the level started on: the
      writes of a level do not change what that same level reads. */
  lemma LevelWritesMatchReference<P, T>(env: Env<P, T>, levelOf: P -> int, c: Config, rule: GridRule, z: int, s: nat, store: Store<P, T>)
    requires c.tileWidth > 0 && c.tileHeight > 0 && s >= 1
    requires LevelSeparating(env, levelOf)
    ensures RunLevel(env, c, rule, z, s, store).writeLog == WrittenOutputs(env, c, s, z, Positions(c, rule, s), store)
  {
    var ys, xs := RowStarts(c, rule, s), ColStarts(c, rule, s);
    var start := LevelState(store, [], [], 0, false);
    VisitRowsIsRowMajor(env, c, s, z, ys, xs, start);
    VisitAllMatchesReference(env, levelOf, c, s, z, Positions(c, rule, s), start, store);
  }

  /** The path template keeps sections apart: the section of an address
      can be read back off its path (`zOf`), so addresses of different
      sections never render to the same path. */
  ghost predicate SectionSeparating<P, T>(env: Env<P, T>, zOf: P -> int)
  {
    forall a: Address :: zOf(env.path(a)) == a.z
  }

  /** Two stores hold the same thing under the path of every address of
      section z. */
  ghost predicate AgreeOnSection<P, T>(env: Env<P, T>, store1: Store<P, T>, store2: Store<P, T>, z: int)
  {
    forall a: Address :: a.z == z ==> Lookup(store1, env.path(a)) == Lookup(store2, env.path(a))
  }

  /** Two stores hold the same thing under the path of every address
      outside section z. */
  ghost predicate AgreeOffSection<P, T>(env: Env<P, T>, store1: Store<P, T>, store2: Store<P, T>, z: int)
  {
    forall a: Address :: a.z != z ==> Lookup(store1, env.path(a)) == Lookup(store2, env.path(a))
  }

  /** A visit of section z looks at storage only under section-z paths:
      from two states that differ only in storage, and whose stores agree
      on section z, it counts, reads and writes the same, and the stores
      it leaves still agree on section z. */
  lemma VisitIndep<P, T>(env: Env<P, T>, c: Config, s: nat, z: int, p: Pos, st1: LevelState<P, T>, st2: LevelState<P, T>)
    requires c.tileWidth > 0 && c.tileHeight > 0 && s >= 1
    requires AgreeOnSection(env, st1.store, st2.store, z)
    requires st1.(store := st2.store) == st2
    ensures Visit(env, c, s, z, p, st1).(store := Visit(env, c, s, z, p, st2).store) == Visit(env, c, s, z, p, st2)
    ensures AgreeOnSection(env, Visit(env, c, s, z, p, st1).store, Visit(env, c, s, z, p, st2).store, z)
  {
    var kids := Children(c, s, z, p);
    ReadQuadSkips(env, st1.store, kids, st2.store);
    VisitStore(env, c, s, z, p, st1);
    VisitStore(env, c, s, z, p, st2);
  }

  /** A visit of section z changes storage only under section-z paths. */
  lemma VisitKeepsOtherSections<P, T>(env: Env<P, T>, zOf: P -> int, c: Config, s: nat, z: int, p: Pos, st: LevelState<P, T>)
    requires c.tileWidth > 0 && c.tileHeight > 0 && s >= 1
    requires SectionSeparating(env, zOf)
    ensures AgreeOffSection(env, Visit(env, c, s, z, p, st).store, st.store, z)
  {
    VisitStore(env, c, s, z, p, st);
    forall a: Address | a.z != z
      ensures Lookup(Visit(env, c, s, z, p, st).store, env.path(a)) == Lookup(st.store, env.path(a))
    {
      assert zOf(env.path(a)) != zOf(env.path(Output(c, s, z, p)));
    }
  }

  /** `VisitIndep` over a run of positions. */
  lemma {:induction false} VisitAllIndep<P, T>(env: Env<P, T>, c: Config, s: nat, z: int, ps: seq<Pos>, st1: LevelState<P, T>, st2: LevelState<P, T>)
    requires c.tileWidth > 0 && c.tileHeight > 0 && s >= 1
    requires AgreeOnSection(env, st1.store, st2.store, z)
    requires st1.(store := st2.store) == st2
    ensures VisitAll(env, c, s, z, ps, st1).(store := VisitAll(env, c, s, z, ps, st2).store) == VisitAll(env, c, s, z, ps, st2)
    ensures AgreeOnSection(env, VisitAll(env, c, s, z, ps, st1).store, VisitAll(env, c, s, z, ps, st2).store, z)
    decreases |ps|
  {
    if |ps| > 0 {
      VisitIndep(env, c, s, z, ps[0], st1, st2);
      VisitAllIndep(env, c, s, z, ps[1..], Visit(env, c, s, z, ps[0], st1), Visit(env, c, s, z, ps[0], st2));
    }
  }

  /** Visiting a run of positions of section z changes storage only under
      section-z paths. */
  lemma {:induction false} VisitAllKeepsOtherSections<P, T>(env: Env<P, T>, zOf: P -> int, c: Config, s: nat, z: int, ps: seq<Pos>, st: LevelState<P, T>)
    requires c.tileWidth > 0 && c.tileHeight > 0 && s >= 1
    requires SectionSeparating(env, zOf)
    ensures AgreeOffSection(env, VisitAll(env, c, s, z, ps, st).store, st.store, z)
    decreases |ps|
  {
    if |ps| > 0 {
      var next := Visit(env, c, s, z, ps[0], st);
      VisitKeepsOtherSections(env, zOf, c, s, z, ps[0], st);
      VisitAllKeepsOtherSections(env, zOf, c, s, z, ps[1..], next);
    }
  }

  /** A level of section z depends on storage only under section-z paths:
      on two stores that agree there it counts, reads and writes the same,
      and leaves stores that still agree there. */
  lemma RunLevelIndep<P, T>(env: Env<P, T>, c: Config, rule: GridRule, z: int, s: nat, store1: Store<P, T>, store2: Store<P, T>)
    requires c.tileWidth > 0 && c.tileHeight > 0 && s >= 1
    requires AgreeOnSection(env, store1, store2, z)
    ensures RunLevel(env, c, rule, z, s, store1).(store := RunLevel(env, c, rule, z, s, store2).store)
         == RunLevel(env, c, rule, z, s, store2)
    ensures AgreeOnSection(env, RunLevel(env, c, rule, z, s, store1).store, RunLevel(env, c, rule, z, s, store2).store, z)
  {
    VisitAllIndep(env, c, s, z, Positions(c, rule, s), LevelState(store1, [], [], 0, false), LevelState(store2, [], [], 0, false));
  }

  /** A level of section z changes storage only under section-z paths. */
  lemma RunLevelKeepsOtherSections<P, T>(env: Env<P, T>, zOf: P -> int, c: Config, rule: GridRule, z: int, s: nat, store: Store<P, T>)
    requires c.tileWidth > 0 && c.tileHeight > 0 && s >= 1
    requires SectionSeparating(env, zOf)
    ensures AgreeOffSection(env, RunLevel(env, c, rule, z, s, store).store, store, z)
  {
    VisitAllKeepsOtherSections(env, zOf, c, s, z, Positions(c, rule, s), LevelState(store, [], [], 0, false));
  }
}

=== FILE: sections.dfy ===
/** The two outer loops of `scale(...)`: levels of one z-section until the
    termination rule fires, and the z-sections from `minZ` to `maxZ`; and
    the two entry points, the extent form and the `Param` form. */
module Sections {
  import opened JavaArith
  import opened Tiles
  import opened Grid
  import opened Addressing
  import opened Pyramid

  /** What a run leaves behind: storage, the addresses read and written in
      order, and `nResultTiles` of every level run, one sequence per
      section. */
  datatype RunResult<P(==), T> = RunResult(
    store: Store<P, T>,
    readLog: seq<Address>,
    writeLog: seq<Address>,
    counts: seq<seq<nat>>)

  /** n copies of x: one count sequence per section. */
  function Repeat<X>(x: X, n: nat): (r: seq<X>)
    ensures |r| == n && forall k :: 0 <= k < n ==> r[k] == x
  {
    if n == 0 then [] else [x] + Repeat(x, n - 1)
  }

  /** What the levels of section z from level s on read, storage aside:
      the four sources of every grid position of the level, then, when
      the level has more than one position, what the levels after it read. */
  function LevelReads(c: Config, rule: GridRule, z: int, s: nat): seq<Address>
    requires WellFormed(c) && s >= 1
    decreases LevelsLeft(s)
  {
    var here := AllChildren(c, s, z, Positions(c, rule, s));
    if PositionCount(c, rule, s) <= 1 then
      here
    else
      BusyLevelWithinExtent(c, rule, s);
      here + LevelReads(c, rule, z, s + 1)
  }

  /** What section z reads, from level 1 on. */
  function SectionReads(c: Config, rule: GridRule, z: int): seq<Address>
    requires WellFormed(c)
  {
    LevelReads(c, rule, z, 1)
  }

  /** What the sections from z to `maxZ` read, one after the other in
      increasing z. */
  function RangeReads(c: Config, rule: GridRule, z: int): seq<Address>
    requires WellFormed(c)
    decreases if z <= c.maxZ then c.maxZ - z + 1 else 0
  {
    if z > c.maxZ then [] else SectionReads(c, rule, z) + RangeReads(c, rule, z + 1)
  }

  /** Every read of the levels of section z belongs to section z. */
  lemma {:induction false} LevelReadsInSection(c: Config, rule: GridRule, z: int, s: nat, a: Address)
    requires WellFormed(c) && s >= 1
    requires a in LevelReads(c, rule, z, s)
    ensures a.z == z
    decreases LevelsLeft(s)
  {
    if a !in AllChildren(c, s, z, Positions(c, rule, s)) {
      BusyLevelWithinExtent(c, rule, s);
      LevelReadsInSection(c, rule, z, s + 1, a);
    }
  }

  /** Every read of the sections from z on belongs to one of them. */
  lemma {:induction false} RangeReadsInRange(c: Config, rule: GridRule, z: int, a: Address)
    requires WellFormed(c)
    requires a in RangeReads(c, rule, z)
    ensures z <= a.z <= c.maxZ
    decreases if z <= c.maxZ then c.maxZ - z + 1 else 0
  {
    if a in SectionReads(c, rule, z) {
      LevelReadsInSection(c, rule, z, 1, a);
    } else {
      RangeReadsInRange(c, rule, z + 1, a);
    }
  }

  /** The z loop reads its sections in increasing z: a read never follows
      a read of a later section. */
  lemma {:induction false} RangeReadsOrdered(c: Config, rule: GridRule, z: int)
    requires WellFormed(c)
    ensures forall i, j :: 0 <= i < j < |RangeReads(c, rule, z)| ==>
      RangeReads(c, rule, z)[i].z <= RangeReads(c, rule, z)[j].z
    decreases if z <= c.maxZ then c.maxZ - z + 1 else 0
  {
    if z <= c.maxZ {
      var sec, rest := SectionReads(c, rule, z), RangeReads(c, rule, z + 1);
      var r := RangeReads(c, rule, z);
      RangeReadsOrdered(c, rule, z + 1);
      forall i, j | 0 <= i < j < |r|
        ensures r[i].z <= r[j].z
      {
        if j < |sec| {
          assert r[i] == sec[i] && r[j] == sec[j];
          LevelReadsInSection(c, rule, z, 1, sec[i]);
          LevelReadsInSection(c, rule, z, 1, sec[j]);
        } else if i < |sec| {
          assert r[i] == sec[i] && r[j] == rest[j - |sec|];
          LevelReadsInSection(c, rule, z, 1, sec[i]);
          RangeReadsInRange(c, rule, z + 1, rest[j - |sec|]);
        } else {
          assert r[i] == rest[i - |sec|] && r[j] == rest[j - |sec|];
        }
      }
    }
  }

  /** The level loop of section z from level s on: run the level, and go on
      to level s + 1 while `workToDo` holds. The counts of the levels run
      are the level counts of the grid alone; every tile written belongs to
      section z and to one of the levels run. */
  function RunSection<P(==), T>(env: Env<P, T>, c: Config, rule: GridRule, z: int, s: nat, store: Store<P, T>): (r: RunResult<P, T>)
    requires WellFormed(c) && s >= 1
    ensures r.counts == [LevelCounts(c, rule, s)]
    ensures r.readLog == LevelReads(c, rule, z, s)
    ensures forall i :: 0 <= i < |r.writeLog| ==> r.writeLog[i].z == z && s <= r.writeLog[i].level < s + |r.counts[0]|
    decreases LevelsLeft(s)
  {
    var lv := RunLevel(env, c, rule, z, s, store);
    if !lv.workToDo then
      RunResult(lv.store, lv.readLog, lv.writeLog, [[lv.count]])
    else
      BusyLevelWithinExtent(c, rule, s);
      var rest := RunSection(env, c, rule, z, s + 1, lv.store);
      RunResult(rest.store, lv.readLog + rest.readLog, lv.writeLog + rest.writeLog,
                [[lv.count] + rest.counts[0]])
  }

  /** The z loop from section z on. One count sequence per section, each the
      level counts of level 1 on: every section is built to the same depth,
      whatever it holds. Every tile written belongs to a section of the
      range. */
  function RunFrom<P(==), T>(env: Env<P, T>, c: Config, rule: GridRule, z: int, store: Store<P, T>): (r: RunResult<P, T>)
    requires WellFormed(c) && c.minZ <= z
    ensures r.readLog == RangeReads(c, rule, z)
    ensures forall i :: 0 <= i < |r.writeLog| ==> z <= r.writeLog[i].z <= c.maxZ && 1 <= r.writeLog[i].level <= MAX_LEVEL
    decreases if z <= c.maxZ then c.maxZ - z + 1 else 0
  {
    if z > c.maxZ then
      RunResult(store, [], [], [])
    else
      var sec := RunSection(env, c, rule, z, 1, store);
      LevelsStayInRange(c, rule);
      var rest := RunFrom(env, c, rule, z + 1, sec.store);
      assert RangeReads(c, rule, z) == SectionReads(c, rule, z) + RangeReads(c, rule, z + 1);
      assert sec.readLog == SectionReads(c, rule, z);
      RunResult(rest.store, sec.readLog + rest.readLog, sec.writeLog + rest.writeLog,
                sec.counts + rest.counts)
  }

  /** Every section of the range is built to the same depth, whatever it
      holds: the z loop records the level counts of level 1 on once per
      section. */
  lemma {:induction false} RunFromCounts<P, T>(env: Env<P, T>, c: Config, rule: GridRule, z: int, store: Store<P, T>)
    requires WellFormed(c) && c.minZ <= z
    ensures RunFrom(env, c, rule, z, store).counts
         == Repeat(LevelCounts(c, rule, 1), if z <= c.maxZ then c.maxZ - z + 1 else 0)
    decreases if z <= c.maxZ then c.maxZ - z + 1 else 0
  {
    if z <= c.maxZ {
      var sec := RunSection(env, c, rule, z, 1, store);
      var levels := LevelCounts(c, rule, 1);
      RunFromCountsStep(env, c, rule, z, store);
      RunFromCounts(env, c, rule, z + 1, sec.store);
      assert sec.counts == [levels];
      assert Repeat(levels, c.maxZ - z + 1) == [levels] + Repeat(levels, c.maxZ - z);
    } else {
      assert RunFrom(env, c, rule, z, store).counts == [];
    }
  }

  /** One turn of the z loop: the counts of section z, then those of the
      sections after it, run on the storage section z left behind. */
  lemma RunFromCountsStep<P, T>(env: Env<P, T>, c: Config, rule: GridRule, z: int, store: Store<P, T>)
    requires WellFormed(c) && c.minZ <= z <= c.maxZ
    ensures var sec := RunSection(env, c, rule, z, 1, store);
      RunFrom(env, c, rule, z, store).counts == sec.counts + RunFrom(env, c, rule, z + 1, sec.store).counts
  {
  }

  /** The levels of section z depend on storage only under section-z
      paths: on two stores that agree there they write the same tiles in
      the same order, and leave stores that still agree there. */
  lemma {:induction false} RunSectionIndep<P, T>(env: Env<P, T>, c: Config, rule: GridRule, z: int, s: nat, store1: Store<P, T>, store2: Store<P, T>)
    requires WellFormed(c) && s >= 1
    requires AgreeOnSection(env, store1, store2, z)
    ensures RunSection(env, c, rule, z, s, store1).writeLog == RunSection(env, c, rule, z, s, store2).writeLog
    ensures AgreeOnSection(env, RunSection(env, c, rule, z, s, store1).store, RunSection(env, c, rule, z, s, store2).store, z)
    decreases LevelsLeft(s)
  {
    RunLevelIndep(env, c, rule, z, s, store1, store2);
    var lv1, lv2 := RunLevel(env, c, rule, z, s, store1), RunLevel(env, c, rule, z, s, store2);
    if lv1.workToDo {
      BusyLevelWithinExtent(c, rule, s);
      RunSectionIndep(env, c, rule, z, s + 1, lv1.store, lv2.store);
    }
  }

  /** When the path template keeps sections apart, the levels of section z
      change storage only under section-z paths. */
  lemma {:induction false} RunSectionKeepsOtherSections<P, T>(env: Env<P, T>, zOf: P -> int, c: Config, rule: GridRule, z: int, s: nat, store: Store<P, T>)
    requires WellFormed(c) && s >= 1
    requires SectionSeparating(env, zOf)
    ensures AgreeOffSection(env, RunSection(env, c, rule, z, s, store).store, store, z)
    decreases LevelsLeft(s)
  {
    RunLevelKeepsOtherSections(env, zOf, c, rule, z, s, store);
    var lv := RunLevel(env, c, rule, z, s, store);
    if lv.workToDo {
      BusyLevelWithinExtent(c, rule, s);
      RunSectionKeepsOtherSections(env, zOf, c, rule, z, s + 1, lv.store);
    }
  }

  /** Reference for what the z loop writes when sections are independent:
      section z, z + 1, ..., `maxZ`, each run on its own on the storage the
      loop started on, their writes concatenated in increasing z. */
  function RangeWrites<P(==), T>(env: Env<P, T>, c: Config, rule: GridRule, z: int, store: Store<P, T>): seq<Address>
    requires WellFormed(c)
    decreases if z <= c.maxZ then c.maxZ - z + 1 else 0
  {
    if z > c.maxZ then [] else RunSection(env, c, rule, z, 1, store).writeLog + RangeWrites(env, c, rule, z + 1, store)
  }

  /** Two stores hold the same thing under the path of every address of
      section z or later. */
  ghost predicate AgreeFromSection<P, T>(env: Env<P, T>, store1: Store<P, T>, store2: Store<P, T>, z: int)
  {
    forall a: Address :: a.z >= z ==> Lookup(store1, env.path(a)) == Lookup(store2, env.path(a))
  }

  /** Storage that agrees with `store0` from section z on, after a run of
      section z that touches nothing outside it, still agrees from section
      z + 1 on; and section z itself started out agreeing. */
  lemma AgreeStep<P, T>(env: Env<P, T>, store: Store<P, T>, after: Store<P, T>, store0: Store<P, T>, z: int)
    requires AgreeFromSection(env, store, store0, z) && AgreeOffSection(env, after, store, z)
    ensures AgreeOnSection(env, store, store0, z)
    ensures AgreeFromSection(env, after, store0, z + 1)
  {
  }

  /** One turn of the z loop: the writes of section z, then those of the
      sections after it, run on the storage section z left behind. */
  lemma RunFromWritesStep<P, T>(env: Env<P, T>, c: Config, rule: GridRule, z: int, store: Store<P, T>)
    requires WellFormed(c) && c.minZ <= z <= c.maxZ
    ensures var sec := RunSection(env, c, rule, z, 1, store);
      RunFrom(env, c, rule, z, store).writeLog == sec.writeLog + RunFrom(env, c, rule, z + 1, sec.store).writeLog
  {
  }

  /** The reference one section at a time. */
  lemma RangeWritesStep<P, T>(env: Env<P, T>, c: Config, rule: GridRule, z: int, store: Store<P, T>)
    requires WellFormed(c) && z <= c.maxZ
    ensures RangeWrites(env, c, rule, z, store)
         == RunSection(env, c, rule, z, 1, store).writeLog + RangeWrites(env, c, rule, z + 1, store)
  {
  }

  /** Past `maxZ` the z loop writes nothing, and neither does the reference. */
  lemma RunFromWritesPast<P, T>(env: Env<P, T>, c: Config, rule: GridRule, z: int, store: Store<P, T>, store0: Store<P, T>)
    requires WellFormed(c) && c.minZ <= z && c.maxZ < z
    ensures RunFrom(env, c, rule, z, store).writeLog == RangeWrites(env, c, rule, z, store0) == []
  {
  }

  /** One turn of the z loop against the reference: section z writes what
      it writes on the starting storage, touches nothing of the sections
      after it, and so the rest of the loop is left to match the rest of
      the reference. */
  lemma RunFromWritesTurn<P, T>(env: Env<P, T>, zOf: P -> int, c: Config, rule: GridRule, z: int, store: Store<P, T>, store0: Store<P, T>)
    requires WellFormed(c) && c.minZ <= z <= c.maxZ
    requires SectionSeparating(env, zOf) && AgreeFromSection(env, store, store0, z)
    ensures var sec := RunSection(env, c, rule, z, 1, store);
      && AgreeFromSection(env, sec.store, store0, z + 1)
      && (RunFrom(env, c, rule, z + 1, sec.store).writeLog == RangeWrites(env, c, rule, z + 1, store0)
          ==> RunFrom(env, c, rule, z, store).writeLog == RangeWrites(env, c, rule, z, store0))
  {
    var sec := RunSection(env, c, rule, z, 1, store);
    RunFromWritesStep(env, c, rule, z, store);
    RunSectionKeepsOtherSections(env, zOf, c, rule, z, 1, store);
    AgreeStep(env, store, sec.store, store0, z);
    RunSectionIndep(env, c, rule, z, 1, store, store0);
    RangeWritesStep(env, c, rule, z, store0);
  }

  /** The sections are independent: when the path template keeps sections
      apart, the z loop from section z writes exactly what every section of
      the range writes when run on its own on the starting storage, so no
      section sees what an earlier one wrote. */
  lemma {:induction false} RunFromWritesBySection<P, T>(env: Env<P, T>, zOf: P -> int, c: Config, rule: GridRule, z: int, store: Store<P, T>, store0: Store<P, T>)
    requires WellFormed(c) && c.minZ <= z
    requires SectionSeparating(env, zOf) && AgreeFromSection(env, store, store0, z)
    ensures RunFrom(env, c, rule, z, store).writeLog == RangeWrites(env, c, rule, z, store0)
    decreases if z <= c.maxZ then c.maxZ - z + 1 else 0
  {
    if z <= c.maxZ {
      var sec := RunSection(env, c, rule, z, 1, store);
      RunFromWritesTurn(env, zOf, c, rule, z, store, store0);
      RunFromWritesBySection(env, zOf, c, rule, z + 1, sec.store, store0);
    } else {
      RunFromWritesPast(env, c, rule, z, store, store0);
    }
  }

  /** `scale(tileFormat, tileWidth, ..., ignoreEmptyTiles)` on the extent of
      `c`, as the source computes it. */
  function Scale<P(==), T>(env: Env<P, T>, c: Config, store: Store<P, T>): (r: RunResult<P, T>)
    requires WellFormed(c)
    ensures r.counts == Repeat(LevelCounts(c, AsWritten, 1), if c.minZ <= c.maxZ then c.maxZ - c.minZ + 1 else 0)
    ensures r.readLog == RangeReads(c, AsWritten, c.minZ)
    ensures forall i :: 0 <= i < |r.writeLog| ==> c.minZ <= r.writeLog[i].z <= c.maxZ && 1 <= r.writeLog[i].level <= MAX_LEVEL
  {
    RunFromCounts(env, c, AsWritten, c.minZ, store);
    RunFrom(env, c, AsWritten, c.minZ, store)
  }

  /** `scale(Param)`: the inclusive tile ranges turned into the pixel
      extent, then `scale(...)`. */
  function ScaleParam<P(==), T>(env: Env<P, T>, p: Param, store: Store<P, T>): (r: RunResult<P, T>)
    requires WellFormed(ToConfig(p))
    ensures r.counts == Repeat(LevelCounts(ToConfig(p), AsWritten, 1), if p.minZ <= p.maxZ then p.maxZ - p.minZ + 1 else 0)
    ensures r.readLog == RangeReads(ToConfig(p), AsWritten, p.minZ)
    ensures forall i :: 0 <= i < |r.writeLog| ==> p.minZ <= r.writeLog[i].z <= p.maxZ && 1 <= r.writeLog[i].level <= MAX_LEVEL
  {
    Scale(env, ToConfig(p), store)
  }

  /** The builder with the loop starts aligned to the 2x2 blocks of the
      level below (see the coverage lemmas); otherwise identical. */
  function ScaleCorrected<P(==), T>(env: Env<P, T>, c: Config, store: Store<P, T>): (r: RunResult<P, T>)
    requires WellFormed(c)
    ensures r.counts == Repeat(LevelCounts(c, PairAligned, 1), if c.minZ <= c.maxZ then c.maxZ - c.minZ + 1 else 0)
    ensures r.readLog == RangeReads(c, PairAligned, c.minZ)
    ensures forall i :: 0 <= i < |r.writeLog| ==> c.minZ <= r.writeLog[i].z <= c.maxZ && 1 <= r.writeLog[i].level <= MAX_LEVEL
  {
    RunFromCounts(env, c, PairAligned, c.minZ, store);
    RunFrom(env, c, PairAligned, c.minZ, store)
  }

  /** The whole run, section by section: when the path template keeps
      sections apart, `scale(...)` writes what each section from `minZ` to
      `maxZ` writes on its own on the starting storage, in increasing z,
      so the sections could be built in any order or in parallel. */
  lemma ScaleWritesBySection<P, T>(env: Env<P, T>, zOf: P -> int, c: Config, store: Store<P, T>)
    requires WellFormed(c) && SectionSeparating(env, zOf)
    ensures Scale(env, c, store).writeLog == RangeWrites(env, c, AsWritten, c.minZ, store)
  {
    RunFromWritesBySection(env, zOf, c, AsWritten, c.minZ, store, store);
  }

  /** The same for `scale(Param)` on its converted extent. */
  lemma ScaleParamWritesBySection<P, T>(env: Env<P, T>, zOf: P -> int, p: Param, store: Store<P, T>)
    requires WellFormed(ToConfig(p)) && SectionSeparating(env, zOf)
    ensures ScaleParam(env, p, store).writeLog == RangeWrites(env, ToConfig(p), AsWritten, p.minZ, store)
  {
    ScaleWritesBySection(env, zOf, ToConfig(p), store);
  }

  /** Three by three tiles of 256 pixels in one section: level 1 has four
      positions, level 2 a single one, so every run builds exactly two
      levels, whatever storage holds. */
  const THREE_BY_THREE: Param := Param(256, 256, 0, 2, 0, 2, 0, 0, true)

  lemma ThreeByThreeDepth<P, T>(env: Env<P, T>, store: Store<P, T>)
    ensures WellFormed(ToConfig(THREE_BY_THREE))
    ensures ScaleParam(env, THREE_BY_THREE, store).counts == [[4, 1]]
  {
    var c := ToConfig(THREE_BY_THREE);
    assert c.minX == 0 && c.maxX == 768 && c.minY == 0 && c.maxY == 768;
    assert Pow2(0) == 1 && Pow2(1) == 2;
    assert RowStarts(c, AsWritten, 1) == ColStarts(c, AsWritten, 1) == Steps(0, 768, 512) == [0, 512];
    assert RowStarts(c, AsWritten, 2) == ColStarts(c, AsWritten, 2) == Steps(0, 384, 512) == [0];
    assert |Positions(c, AsWritten, 1)| == 4 && |Positions(c, AsWritten, 2)| == 1;
    assert LevelCounts(c, AsWritten, 1) == [4, 1];
  }
}

=== FILE: tiles.dfy ===
/** Data model of the scale-pyramid builder: tile addresses, what storage
    holds under a path, what `open` hands back, the 2x2 block of sources,
    the run configuration and the inclusive tile-range parameters. */
module Tiles {
  import opened JavaArith

  /** The integer arguments of `String.format(tileFormat, ...)` that name a
      tile, in the order they are passed: scale level, x and y pixel
      coordinates at level 0, z-section, tile width and height in level-0
      pixels, row and column index at that level. The floating-point scale
      factor that sits between `level` and `xPixel` is not modelled. */
  datatype Address = Address(
    level: int,
    xPixel: int,
    yPixel: int,
    z: int,
    width: int,
    height: int,
    row: int,
    col: int)

  /** What the file system holds under one path, as seen by `open`. */
  datatype FileState<T> =
    | Missing                 // `file.exists()` is false
    | Unreadable              // `ImageIO.read` throws an IOException
    | Undecodable             // `ImageIO.read` finds no decoder and returns null
    | Decoded(image: T)       // `ImageIO.read` returns an image

  /** What `open` returns: the shared `alternative` placeholder, a null
      image, or a decoded image. Only the placeholder counts as absent when
      the builder decides whether to skip a position. */
  datatype Source<T> = Alternative | NoImage | Loaded(image: T)

  /** Storage keyed by rendered tile path; a path not in the map is missing. */
  type Store<P(==), T> = map<P, FileState<T>>

  function Lookup<P(==), T>(store: Store<P, T>, p: P): FileState<T>
  {
    if p in store then store[p] else Missing
  }

  /** `open(path, alternative, type)`: a missing file and a read that throws
      an IOException both yield the placeholder; otherwise whatever
      `ImageIO.read` returned. */
  function Open<T>(f: FileState<T>): (r: Source<T>)
    ensures r.Alternative? <==> (f.Missing? || f.Unreadable?)
    ensures r.Loaded? <==> f.Decoded?
    ensures r.Loaded? ==> r.image == f.image
  {
    match f
    case Missing => Alternative
    case Unreadable => Alternative
    case Undecodable => NoImage
    case Decoded(img) => Loaded(img)
  }

  /** The 2x2 block of level s-1 tiles that make up one level-s tile. */
  datatype Quad<X> = Quad(topLeft: X, topRight: X, bottomLeft: X, bottomRight: X)
  {
    function Elements(): seq<X>
    {
      [topLeft, topRight, bottomLeft, bottomRight]
    }
  }

  /** All four sources are the placeholder: nothing to downsample. */
  predicate AllAlternative<T>(q: Quad<Source<T>>)
  {
    q.topLeft.Alternative? && q.topRight.Alternative?
    && q.bottomLeft.Alternative? && q.bottomRight.Alternative?
  }

  /** Result of `Downsampler.downsampleRGB` on the mosaic of four sources:
      the downsampled tile and the `notEmpty` flag it returns. */
  datatype Downsampled<T> = Downsampled(pixels: T, notEmpty: bool)

  /** The collaborators the builder calls but that are not part of this
      model: the path template applied to an address, the downsampler
      applied to the mosaic of four sources, and what a later read finds in
      a file written from downsampled pixels. The last covers drawing into
      the output image type, encoding in the output format at the given
      quality, and decoding again: a lossy format or a conversion to gray
      means the next level need not see the pixels the downsampler made. */
  datatype Env<P, !T> = Env(
    path: Address -> P,
    downsample: Quad<Source<T>> -> Downsampled<T>,
    stored: T -> FileState<T>)

  /** Arguments of `scale(tileFormat, tileWidth, ..., ignoreEmptyTiles)`
      that the control logic depends on: the half-open pixel extent
      [minX, maxX) x [minY, maxY) at level 0 and the inclusive z range. */
  datatype Config = Config(
    tileWidth: int,
    tileHeight: int,
    minX: int,
    maxX: int,
    minY: int,
    maxY: int,
    minZ: int,
    maxZ: int,
    ignoreEmptyTiles: bool)

  /** The fields of `Param` that the control logic depends on: inclusive
      column, row and z ranges in tiles. */
  datatype Param = Param(
    tileWidth: int,
    tileHeight: int,
    minC: int,
    maxC: int,
    minR: int,
    maxR: int,
    minZ: int,
    maxZ: int,
    ignoreEmptyTiles: bool)

  /** Index of the tile that contains pixel `px` along one axis. */
  function TileIndex(px: int, size: int): int
    requires size > 0
  {
    px / size
  }

  /** `k <= px / size` exactly when tile k starts at or before pixel px. */
  lemma TileIndexAtLeast(px: int, size: int, k: int)
    requires size > 0
    ensures k <= TileIndex(px, size) <==> k * size <= px
  {
    var q, m := px / size, px % size;
    assert px == q * size + m && 0 <= m < size;
    var d := q - k;
    assert k * size == q * size - d * size;
    if d >= 0 {
      assert d * size >= 0;
    } else {
      assert -d >= 1;
      assert (-d) * size >= size;
    }
  }

  /** The pixels covered by the inclusive tile range [lo, hi] along one
      axis are exactly [lo * size, (hi + 1) * size). */
  lemma InclusiveRangePixels(lo: int, hi: int, size: int)
    ensures size > 0 ==>
      forall px :: lo * size <= px < (hi + 1) * size <==> lo <= TileIndex(px, size) <= hi
  {
    forall px | size > 0 ensures lo * size <= px < (hi + 1) * size <==> lo <= TileIndex(px, size) <= hi {
      TileIndexAtLeast(px, size, lo);
      TileIndexAtLeast(px, size, hi + 1);
    }
  }

  /** `scale(Param)`: converts the inclusive column and row ranges to the
      half-open pixel extent handed to `scale(...)`. A pixel is inside the
      extent exactly when its tile lies in the inclusive range. */
  function ToConfig(p: Param): (c: Config)
    ensures c.tileWidth == p.tileWidth && c.tileHeight == p.tileHeight
    ensures c.minZ == p.minZ && c.maxZ == p.maxZ && c.ignoreEmptyTiles == p.ignoreEmptyTiles
    ensures p.tileWidth > 0 ==>
      forall px :: c.minX <= px < c.maxX <==> p.minC <= TileIndex(px, p.tileWidth) <= p.maxC
    ensures p.tileHeight > 0 ==>
      forall py :: c.minY <= py < c.maxY <==> p.minR <= TileIndex(py, p.tileHeight) <= p.maxR
  {
    InclusiveRangePixels(p.minC, p.maxC, p.tileWidth);
    InclusiveRangePixels(p.minR, p.maxR, p.tileHeight);
    Config(p.tileWidth, p.tileHeight,
           p.minC * p.tileWidth, (p.maxC + 1) * p.tileWidth,
           p.minR * p.tileHeight, (p.maxR + 1) * p.tileHeight,
           p.minZ, p.maxZ, p.ignoreEmptyTiles)
  }

  /** Bound (2^29) on the extent that keeps every level the builder reaches
      at 30 or below, so that `1 << s` stays a positive `int`. */
  const EXTENT_LIMIT: int := 0x2000_0000

  lemma ExtentLimitIsPow2()
    ensures EXTENT_LIMIT == Pow2(29)
  {
    assert Pow2(10) == 0x400;
    assert Pow2(20) == 0x10_0000;
  }

  /** A level-0 pixel coordinate within the extent bound, either side of 0. */
  predicate WithinLimit(v: int)
  {
    -EXTENT_LIMIT < v < EXTENT_LIMIT
  }

  /** What the model assumes of a run: positive tile dimensions whose
      doubling (the `int` loop stride) does not overflow, an extent small
      enough that `1 << s` never overflows, and a z range whose `z++` does
      not wrap. */
  predicate WellFormed(c: Config)
  {
    && 0 < 2 * c.tileWidth <= INT_MAX
    && 0 < 2 * c.tileHeight <= INT_MAX
    && WithinLimit(c.minX) && WithinLimit(c.maxX)
    && WithinLimit(c.minY) && WithinLimit(c.maxY)
    && LONG_MIN <= c.minZ
    && c.maxZ < LONG_MAX
  }
}
